=== FILE: README.md ===
# pyapp-base core in Dafny

A model of the core of pyapp-base, a scaffold for Python command-line applications. The core has four parts:

- **Configuration tree** (`AppConfig`). This covers the recursive merge of a loaded configuration over the defaults, dotted-path `get` and `set`, and `update`.
- **Validators** (`app_validation.py`). These are the not-None, not-empty, range, length, choice, mutual-exclusion and conditional-requirement checks. They also include the file, directory, path, extension and writable-directory checks, all run against an abstract filesystem.
- **Argument handling** (`AppArgParser`). This is post-processing of parsed arguments: deriving the log level and resolving paths. It also covers the dependency and file-path checks, `validate_args` ordering and `get_config_dict`.
- **Errors** (`app_exceptions.py`). This covers the exception hierarchy, `create_error_response`, and the duplicate validators defined next to the exceptions.

Python values are the `Json` datatype (`json.dfy`). The model spells out Python truthiness and Python `==`, under which `True == 1`. A raised exception is the `Exception` datatype (`errors.dfy`). It is either an application error with kind, message, code and context, or a foreign Python error (`TypeError`, `AttributeError`) named by its type. Validators return `Outcome` values (pass, or the exception raised).

The filesystem is a value (`filesystem.dfy`). It holds a map from paths to file or directory, the set of writable paths, and an oracle saying which paths `mkdir` refuses and why. `Path.resolve` is a function parameter, `resolve`. The timestamp and the traceback text of an error response are parameters too.

Modules: `Wrappers`, `Json`, `Text`, `Errors`, `FileSystem`, `Validation`, `ErrorValidators`, `KeyPath`, `Config`, `ConfigExamples`, `ArgParser`.

Facts of the code that the model keeps as written:
- In the code, the command-line default log level `DEFAULT_LOG_LEVEL` is `DEBUG` (`app_const.py:40`), while the default configuration's `logging.level` is `INFO` (`app_config.py:76`). The model takes the parsed level as input and does not restate either default.
- `--quiet` is applied after `--debug` and the verbosity (`app_argparser.py:232-233`), so it overrides both.
- The two mutual exclusions and the undeclared attributes are described below under Findings.

## Model

| member | source | states |
|---|---|---|
| Config.Merge | pyapp-base/app_config.py:177-187 | The result's keys are the union of both trees. A key only in the base keeps its value. An update wins unless both sides hold dicts, in which case the result is the recursive merge of the two dicts. |
| Config.MergeIdempotent | pyapp-base/app_config.py:177-187 | Merging a tree with itself gives the same tree. |
| Config.MergeEmpty | pyapp-base/app_config.py:177-187 | An empty dict is a left and right identity of the merge. |
| Config.MergeOverrideWins | pyapp-base/app_config.py:177-187 | A value at any depth of the updates is what the merged tree holds at that path whenever it is not a dict, or the base holds nothing or a non-dict there. |
| Config.MergeKeepsBase | pyapp-base/app_config.py:177-187 | A base value at a path the updates do not reach, with only dicts along the way in the updates, survives the merge. |
| ConfigExamples.LoggingLevelOverride | pyapp-base/app_config.py:69-91 | Loading `{"logging": {"level": "ERROR"}}` over the defaults changes `logging.level` to ERROR and keeps the sibling `logging.enable_console` as True. |
| Config.Update | pyapp-base/app_config.py:173-175 | `update` is the recursive merge over the current configuration: the same key union, base-only keys kept, updates winning, and dicts on both sides merged recursively. |
| Config.Get | pyapp-base/app_config.py:134-152 | A key without dots is a plain lookup that falls back to the default when missing. A present `None` is returned, not the default. |
| Config.GetJoined | pyapp-base/app_config.py:144-152 | Getting a dotted path walks the dicts key by key and returns the default as soon as a key is missing or a non-dict is indexed. |
| Config.GetDotted | pyapp-base/app_config.py:144-152 | `get("a.rest")` looks up `a`: for a dict it continues with `rest`, and for anything else it gives the default. |
| Config.GetPresentNull | pyapp-base/app_config.py:147-152 | A key present with value `None` gives `None`, not the default. |
| Config.Set | pyapp-base/app_config.py:154-171 | `set` raises TypeError exactly when the path runs into an existing non-dict before its last key. Otherwise `get` of the same path returns the stored value, whatever the default. |
| Config.SetPath | pyapp-base/app_config.py:161-171 | After setting, the path holds the value. The top-level keys gain at most the first key, and other top-level entries are unchanged. |
| Config.SetFailsIffBlocked | pyapp-base/app_config.py:165-171 | Setting fails if and only if some proper prefix of the path holds a non-dict. |
| Config.SetFrame | pyapp-base/app_config.py:161-171 | A path that is neither a prefix nor an extension of the set path reads the same before and after the set. |
| Config.SetBelow | pyapp-base/app_config.py:171 | Below the set path, the tree reads exactly as the stored value does. |
| Config.SetCreatesIntermediate | pyapp-base/app_config.py:165-168 | Every proper prefix of the path holds a dict after the set. A prefix that was missing before now holds a dict. |
| Config.GetAfterSet | pyapp-base/app_config.py:134-171 | A successful `set(p, v)` followed by `get(p, d)` returns `v`. |
| KeyPath.JoinSplit | pyapp-base/app_config.py:144 | Splitting a key path at '.' and joining the parts with '.' gives the path back. |
| KeyPath.SplitJoin | pyapp-base/app_config.py:161 | Joining dot-free keys with '.' and splitting gives the keys back. |
| KeyPath.SplitDotted | pyapp-base/app_config.py:144 | Splitting `a.rest` gives `a` followed by the split of `rest`. |
| KeyPath.SplitPlain | pyapp-base/app_config.py:144 | A dot-free path splits into itself alone. |
| Validation.ValidateNotNone | pyapp-base/app_validation.py:74-79 | Fails exactly for `None`, with ValidationError, NULL_VALUE_ERROR and context `{name}`. |
| Validation.ValidateNotEmpty | pyapp-base/app_validation.py:96-101 | Fails exactly for falsy values, so a sized value fails iff its length is 0. The error is EMPTY_VALUE_ERROR with context `{name, type}`. |
| Validation.ValidateRange | pyapp-base/app_validation.py:123-135 | Passes iff the value lies within the given bounds. A value below the minimum gives MIN_VALUE_ERROR, checked first. A value above the maximum gives MAX_VALUE_ERROR. Each context carries the value and the violated bound. |
| Validation.ValidateLength | pyapp-base/app_validation.py:187-201 | An unsized value raises TypeError. A sized value passes iff its length is within the bounds, with MIN_LENGTH_ERROR checked before MAX_LENGTH_ERROR and the length in the context. |
| Validation.ValidateChoice | pyapp-base/app_validation.py:246-251 | Fails iff no choice is Python-equal to the value, with CHOICE_VALIDATION_ERROR and context `{choices, value}`. |
| Validation.ChoiceAcceptsMembers | pyapp-base/app_validation.py:246 | Every member of the choices passes. |
| Json.PyEqReflexive | pyapp-base/app_validation.py:246 | Python `==` on these values holds between a value and itself. |
| Json.PyEqSymmetric | pyapp-base/app_validation.py:246 | Python `==` on these values is symmetric. |
| Validation.ValidateFileExists | pyapp-base/app_validation.py:152-165 | Passes iff the path is a file. A missing path gives FILE_NOT_FOUND. An existing non-file gives NOT_A_FILE. |
| Validation.ValidateDirectoryExists | pyapp-base/app_validation.py:269-282 | Passes iff the path is a directory. A missing path gives DIRECTORY_NOT_FOUND. An existing non-directory gives NOT_A_DIRECTORY. |
| Validation.ValidateFileOrDirectoryExists | pyapp-base/app_validation.py:408-414 | Passes iff the path exists, otherwise PATH_NOT_FOUND with context `{path}`. |
| Validation.ValidateWritableDirectory | pyapp-base/app_validation.py:433-471 | Passes iff the path is (or, when creation is allowed and succeeds, becomes) a writable directory. Each failure has its code. Its context is `{dir_path}`, plus `error` holding the reason when `mkdir` fails with an operating-system error. The filesystem changes only through a requested `mkdir`, and a directory created is kept even when the permission check then fails. |
| FileSystem.Mkdir | pyapp-base/app_validation.py:436-450 | `mkdir(exist_ok=True)` succeeds on an existing directory without change. It fails on a file or on a path the oracle refuses. Otherwise it adds exactly that directory. |
| Validation.BaseName | pyapp-base/app_validation.py:318 | The name is the text after the last '/': a '/'-free ending of the path that is the whole path or follows a '/'. |
| Validation.DisplayExtension | pyapp-base/app_validation.py:323 | The displayed extension is a dot followed by the allowed extension with at most one leading dot removed, with its case kept. |
| Validation.DisplayThenLower | pyapp-base/app_validation.py:319-323 | Lower-casing the displayed spelling gives exactly the spelling that is compared. |
| Validation.Suffix | pyapp-base/app_validation.py:318 | The suffix is the name from its last dot on when that dot is neither the first nor the last character, and empty otherwise, including when the name has no dot. |
| Validation.AllowedExtensions | pyapp-base/app_validation.py:319 | Each entry is a dot followed by the allowed extension with at most one leading dot removed and lower-cased, so no entry holds an upper-case letter. |
| Validation.ExtensionSpellingsAgree | pyapp-base/app_validation.py:319 | `ext`, `.ext` and any case variant normalise alike, and normalising twice changes nothing. |
| Validation.JpgSpellingsAgree | pyapp-base/app_validation.py:319 | `jpg`, `.JPG` and `.jpg` all normalise to `.jpg`. |
| Validation.ValidateFileExtension | pyapp-base/app_validation.py:303-328 | The existence and is-file checks come first. A file passes iff its lower-cased suffix is among the normalised allowed extensions. A missing or non-file path gives exactly the file-existence error, context `{file_path}`. Otherwise the result is INVALID_FILE_EXTENSION with context `{allowed_extensions, actual_extension}`, where the allowed extensions are listed in their displayed spelling. |
| Validation.SpecifiedArgsMany | pyapp-base/app_validation.py:350-355 | More than one name is collected iff two distinct positions within both the values and the names are truthy. |
| Validation.SpecifiedArgsAppend | pyapp-base/app_validation.py:350-353 | The names are collected in argument order: each further paired value appends its name exactly when it is truthy. |
| Validation.SpecifiedArgsNonEmpty | pyapp-base/app_validation.py:350-353 | At least one name is collected iff some position within both is truthy. |
| Validation.ValidateMutuallyExclusive | pyapp-base/app_validation.py:347-360 | Fails iff two values are truthy, with MUTUALLY_EXCLUSIVE_ARGS and the specified names in the context. A single value never fails. |
| Validation.TwoFlagsExclusive | pyapp-base/app_validation.py:331-360 | Two named flags fail together iff both are truthy, and then both names are reported in order. |
| Validation.ValidateConditionalRequired | pyapp-base/app_validation.py:386-391 | Fails iff the condition holds and the value is falsy, with CONDITIONAL_REQUIRED_ERROR and both names in the context. |
| Errors.NewAppError | pyapp-base/app_exceptions.py:30-38 | Message, code and kind are stored as given, and a missing context becomes an empty dict. |
| Errors.CreateErrorResponse | pyapp-base/app_exceptions.py:191-207 | The response always has error, error_type, message and timestamp. `error_code` appears iff the error is an application error with a non-empty code. `context` appears iff such an error has a non-empty context and context is included. `traceback` appears iff requested. No other keys appear. |
| ErrorValidators.ValidateNotNone | pyapp-base/app_exceptions.py:102-106 | Same outcome, class, message and code as the validator in `app_validation.py`, but with an empty context. |
| ErrorValidators.ValidateNotEmpty | pyapp-base/app_exceptions.py:119-123 | Same as the `app_validation.py` version except for an empty context. |
| ErrorValidators.ValidateRange | pyapp-base/app_exceptions.py:141-151 | Same as the `app_validation.py` version except for an empty context. |
| ErrorValidators.ValidateFileExists | pyapp-base/app_exceptions.py:164-175 | Same as the `app_validation.py` version except for an empty context. |
| ArgParser.PostProcess | pyapp-base/app_argparser.py:219-246 | `--quiet` forces ERROR and turns the console off. Otherwise `--debug` or verbosity 2+ gives DEBUG, verbosity 1 gives INFO, and otherwise the level is kept. Non-empty config, output and log-file paths are resolved. Every other field is unchanged. |
| ArgParser.LevelByPrecedence | pyapp-base/app_argparser.py:222-233 | The derived level is that of the first applicable rule in quiet, debug, verbose≥2, verbose=1 order, falling back to `--log-level`. |
| ArgParser.ValidateInputs | pyapp-base/app_argparser.py:288-291 | Passes iff every input path exists. Otherwise the first missing one is reported with PATH_NOT_FOUND. |
| ArgParser.ValidateRequirements | pyapp-base/app_argparser.py:272-291 | Convert without an output fails first, then batch without inputs. Each gives the conditional-requirement ValidationError naming that requirement: CONDITIONAL_REQUIRED_ERROR with `{condition_name, value_name}`. Other modes never raise it. Otherwise the input check decides. |
| ArgParser.ValidateDependencies | pyapp-base/app_argparser.py:270-303 | Passes iff the requirements pass and neither quiet with verbose nor dry-run with force is given. Otherwise MUTUALLY_EXCLUSIVE_ARGS is raised, naming the clashing pair. |
| ArgParser.ValidateDependenciesAsWritten | pyapp-base/app_argparser.py:294-303 | As written, the exclusion checks never fail: the result equals the requirement checks alone. |
| ArgParser.ExclusionMissedAsWritten | pyapp-base/app_argparser.py:294-303 | When the requirements pass and a clashing pair is given, the as-written checks pass but the intended ones report MUTUALLY_EXCLUSIVE_ARGS. |
| ArgParser.ValidateOutputAndLogDir | pyapp-base/app_argparser.py:311-317 | Passes iff a given output is an existing writable directory and a given log directory is, or can be created as, a writable directory. A missing output gives DIRECTORY_NOT_FOUND. A failing output check is the result, and the filesystem is left unchanged. Once the output passes, a given log directory's check, including its `mkdir`, is the result. |
| ArgParser.ValidateFilePaths | pyapp-base/app_argparser.py:305-317 | A configuration file other than the resolved default must be a file, and is checked first. Otherwise the output and log-directory checks decide. |
| ArgParser.ValidateFilePathsAsWritten | pyapp-base/app_argparser.py:308-309 | As written, the configuration path is compared with the relative default name. The output and log-directory checks after it are the intended ones. |
| ArgParser.DefaultConfigCheckedAsWritten | pyapp-base/app_argparser.py:237-238 | With the default configuration name and no such file, the as-written check reports FILE_NOT_FOUND after resolution. The intended check skips the configuration file. |
| ArgParser.ValidateArgs | pyapp-base/app_argparser.py:248-264 | Succeeds with the post-processed arguments iff the dependency and file-path checks pass. A dependency failure is reported first with the filesystem untouched. After the dependencies pass, a file-path failure is reported with that check's error. It composes the corrected post-processing and checks of Findings rows 3, 1 and 2, and it runs the log-directory check that the code guards with `hasattr(args, 'log_dir')`, which is always false (`app_argparser.py:316`). |
| ArgParser.ConvertRequiresOutput | pyapp-base/app_argparser.py:273-278 | `--mode convert` without `--output` is rejected with CONDITIONAL_REQUIRED_ERROR. |
| ArgParser.BatchRequiresInput | pyapp-base/app_argparser.py:281-286 | `--mode batch` without inputs is rejected with CONDITIONAL_REQUIRED_ERROR. |
| ArgParser.PostProcessFailsAsDeclared | pyapp-base/app_argparser.py:219-234 | With only the declared attributes (lines 119-197), post-processing raises AttributeError for every command line. |
| ArgParser.PostProcessAgreesWhenDeclared | pyapp-base/app_argparser.py:219-246 | Once every attribute read is declared, the namespace version computes the same level, resolved paths and console flag as `PostProcess`. `no_console` is present iff quiet, and it is True when present. |
| ArgParser.LevelStepDeclared | pyapp-base/app_argparser.py:221-229 | With `debug` and `verbose` declared, the level step sets only `log_level`, with debug taking precedence over the verbosity tiers. |
| ArgParser.QuietStepDeclared | pyapp-base/app_argparser.py:231-234 | With `quiet` declared, the quiet step touches only `log_level` and `no_console`. When quiet, it sets them to ERROR and True. Otherwise it keeps both. |
| ArgParser.ResolveStepDeclared | pyapp-base/app_argparser.py:236-244 | Each of config, output and log file is resolved when truthy and kept otherwise. Nothing else changes. |
| ArgParser.Underscored | pyapp-base/app_argparser.py:338 | The result has the same length and no '-'. Each '-' becomes '_', and every other character is kept. |
| ArgParser.GetConfigDict | pyapp-base/app_argparser.py:332-341 | The keys are exactly the underscored names of the non-`None` entries. The last such entry for a key provides its value. No key contains '-' and no value is `None`. |
| Text.Lower | pyapp-base/app_validation.py:318 | Lower-casing keeps the length and leaves no upper-case ASCII letter. Each upper-case letter becomes the letter 32 code points above, and every other character is unchanged. |
| Text.LastIndexOf | pyapp-base/app_validation.py:318 | Finds the last occurrence of a character, or reports that there is none. |

## Left out

- Loading, saving and resetting the configuration file (`load_config`, `save_config`, `reset_to_default`), and the module-level `get_config`/`set_config` wrappers. These are file I/O and a global instance. Only the merge they apply is modelled.
- Shallow-copy aliasing. `default_config.copy()` shares nested dicts, so a later `set` in Python also changes the defaults. Trees are values here.
- `validate_type` and `validate_pattern`. They depend on Python's type objects and on regular expressions.
- argparse itself: parsing, the choices lists, `SystemExit` translation in `parse_args`, and the custom actions `ValidateFileAction`, `ValidateDirectoryAction` and `RangeAction`. The model starts from an already parsed argument record.
- `print_help` and `print_parsed_args`, the logger, the global error handler and `get_error_handler`, and the modules `app_temp`, `app_const` (only the constants used are copied), `__license__`, `__version__`, `utils`, `main` and `body`.
- The module-level annotation `ErrorHandler` in `app_exceptions.py` names an undefined class, so on Python 3.13 and earlier that module fails at import. The model gives the functions defined above it their evidently intended behaviour.
- `app_logger.py`, a wrapper over the standard `logging` module: handlers, rotation and timing decorators.
- Floating-point values. Range validation is over integers only.
- ArgParser.PostProcess: `Path.resolve` is an opaque parameter. Normalisation, symlinks and the working directory are not modelled.
- FileSystem.Mkdir: `parents=True` is not modelled. Missing parent directories are not created, and the reason a creation fails comes from an oracle in the filesystem value.
- Validation.ValidateWritableDirectory: `os.access(path, W_OK)` is the writable set of the filesystem value.
- Validation.ValidateChoice: the message omits the rendered value (`: {value}`) and the rendered choice list, and a non-list `choices` (a string, where `in` means substring) is not modelled.
- Validation.ValidateFileExtension: the message omits the rendered list of allowed extensions, and path splitting is on '/' only.
- Text.Lower: only ASCII letters are lower-cased.
- Json.PyEq: `List` stands for both lists and tuples, so `[1] == (1,)` is true here although Python says False.
- Validation.BaseName: a path ending in '/' gives the empty name, while `Path.name` drops the trailing '/' first.
- Config.Set: the TypeError carries no message text.
- Errors.NewAppError: the `timestamp` field that `AppBaseException.__init__` sets from the clock (`app_exceptions.py:38`) is not modelled.
- Errors.CreateErrorResponse: the timestamp and the traceback text are parameters, not read from the clock and the interpreter.
- ArgParser.ValidateArgs: it composes the corrected post-processing, dependency checks and file-path checks of Findings rows 3, 1 and 2. That includes the log-directory check, which the code skips on every run because `log_dir` is never declared and `hasattr(args, 'log_dir')` is false (`app_argparser.py:316`). The model does not reproduce the skipped check.
- `no_console` is a boolean field of the argument record. The code never declares it and only sets it.

## Findings

| source | as written | input that shows it | evidently intended | confidence | as-written member | corrected member |
|---|---|---|---|---|---|---|
| pyapp-base/app_argparser.py:294-303 | `validate_mutually_exclusive((a, b), names=[...])` passes one tuple, which is one truthy value, so the check never fails | arguments with `quiet` true and `verbose` 1, or with `dry_run` and `force` both true, whose requirements pass | the two flags passed as separate values, so both being set fails with MUTUALLY_EXCLUSIVE_ARGS | not executed | ArgParser.ExclusionMissedAsWritten | ArgParser.ValidateDependencies |
| pyapp-base/app_argparser.py:237-238, 308-309 | post-processing resolves `args.config` to an absolute path, then it is compared with the relative `app_config.json`, so the default is always checked | no `--config` and no `app_config.json` in the working directory | the default configuration file is skipped, compared after resolving it too | not executed | ArgParser.DefaultConfigCheckedAsWritten | ArgParser.ValidateFilePaths |
| pyapp-base/app_argparser.py:226, 232 | `args.verbose` and `args.quiet` are read in `_post_process_args` but never declared, so it raises AttributeError. `dry_run` and `force` are also undeclared and read later in `_validate_dependencies` (lines 295, 301). `log_dir` is undeclared too, but its check is guarded by `hasattr` and never runs (line 316) | any command line, e.g. no arguments (fails at `verbose`) or `--debug` (fails at `quiet`) | the flags declared, so that post-processing computes the derived level | not executed | ArgParser.PostProcessFailsAsDeclared | ArgParser.PostProcess |

=== FILE: argparser.dfy ===
/** Post-processing and validation of parsed command-line arguments
    (`AppArgParser`), over an abstract filesystem. The argparse declarations
    themselves are not modelled: the parsed record is the input. */
module ArgParser {

  import opened Wrappers
  import opened Json
  import opened Text
  import opened Errors
  import opened FileSystem
  import opened Validation

  const DEFAULT_CONFIG_FILENAME := "app_config.json"

  /** The parsed arguments the post-processing and validation read. `verbose`,
      `quiet`, `dry_run`, `force` and `log_dir` are read by the code but never
      declared; this record holds them as intended. `output` and `log_dir`
      default to `None`. */
  datatype Args = Args(
    config: string,
    logLevel: string,
    logFile: string,
    debug: bool,
    mode: string,
    input: seq<string>,
    output: Option<string>,
    format: string,
    verbose: nat,
    quiet: bool,
    dryRun: bool,
    force: bool,
    logDir: Option<string>,
    noConsole: bool)

  /** An optional string as a Python value. */
  function OptStr(o: Option<string>): (r: Json)
    ensures Truthy(r) <==> o.Some? && o.value != ""
  {
    if o.Some? then Str(o.value) else Null
  }

  /** `_post_process_args`: the log level follows `--debug`, then the verbosity,
      and `--quiet` overrides both and turns off the console; non-empty paths are
      made absolute by `resolve`, which stands for `Path.resolve`. */
  function PostProcess(a: Args, resolve: Path -> Path): (r: Args)
    ensures a.quiet ==> r.logLevel == "ERROR" && r.noConsole
    ensures !a.quiet && (a.debug || a.verbose >= 2) ==> r.logLevel == "DEBUG"
    ensures !a.quiet && !a.debug && a.verbose == 1 ==> r.logLevel == "INFO"
    ensures !a.quiet && !a.debug && a.verbose == 0 ==> r.logLevel == a.logLevel
    ensures !a.quiet ==> r.noConsole == a.noConsole
    ensures r.config == if a.config != "" then resolve(a.config) else a.config
    ensures r.output == if a.output.Some? && a.output.value != "" then Some(resolve(a.output.value)) else a.output
    ensures r.logFile == if a.logFile != "" then resolve(a.logFile) else a.logFile
    ensures r.debug == a.debug && r.verbose == a.verbose && r.quiet == a.quiet
    ensures r.mode == a.mode && r.input == a.input && r.format == a.format
    ensures r.dryRun == a.dryRun && r.force == a.force && r.logDir == a.logDir
  {
    var level :=
      if a.debug then "DEBUG"
      else if a.verbose >= 2 then "DEBUG"
      else if a.verbose == 1 then "INFO"
      else a.logLevel;
    Args(
      config := if Truthy(Str(a.config)) then resolve(a.config) else a.config,
      logLevel := if a.quiet then "ERROR" else level,
      logFile := if Truthy(Str(a.logFile)) then resolve(a.logFile) else a.logFile,
      debug := a.debug, mode := a.mode, input := a.input,
      output := if Truthy(OptStr(a.output)) then Some(resolve(a.output.value)) else a.output,
      format := a.format, verbose := a.verbose, quiet := a.quiet, dryRun := a.dryRun, force := a.force,
      logDir := a.logDir,
      noConsole := if a.quiet then true else a.noConsole)
  }

  /** A precedence rule: when `applies`, the level becomes `level`. */
  datatype LevelRule = LevelRule(applies: bool, level: string)

  /** The level of the first applicable rule, or `fallback`. */
  function FirstApplicable(rules: seq<LevelRule>, fallback: string): string {
    if |rules| == 0 then fallback
    else if rules[0].applies then rules[0].level
    else FirstApplicable(rules[1..], fallback)
  }

  /** The flags in decreasing precedence: quiet, debug, verbose twice, verbose once. */
  function LevelRules(a: Args): seq<LevelRule> {
    [LevelRule(a.quiet, "ERROR"), LevelRule(a.debug, "DEBUG"),
     LevelRule(a.verbose >= 2, "DEBUG"), LevelRule(a.verbose == 1, "INFO")]
  }

  /** The post-processed level is the first applicable rule in precedence order,
      the parsed level when none applies. */
  lemma LevelByPrecedence(a: Args, resolve: Path -> Path)
    ensures PostProcess(a, resolve).logLevel == FirstApplicable(LevelRules(a), a.logLevel)
  {
    var rules := LevelRules(a);
    var f := a.logLevel;
    assert rules[1..][1..] == rules[2..] && rules[2..][1..] == rules[3..] && rules[3..][1..] == [];
    assert FirstApplicable(rules[3..], f) == if a.verbose == 1 then "INFO" else f;
    assert FirstApplicable(rules[2..], f) == if a.verbose >= 2 then "DEBUG" else FirstApplicable(rules[3..], f);
    assert FirstApplicable(rules[1..], f) == if a.debug then "DEBUG" else FirstApplicable(rules[2..], f);
  }

  /** `validate` the first check, and only if it passes the second: the first failure is reported. */
  function AndThen(first: Outcome<Exception>, next: Outcome<Exception>): Outcome<Exception> {
    if first.Fail? then first else next
  }

  /** The existence check of every input path, in order: the first missing one is reported. */
  function ValidateInputs(fs: FileSystem, inputs: seq<Path>): (r: Outcome<Exception>)
    ensures r.Pass? <==> forall i :: 0 <= i < |inputs| ==> Exists(fs, inputs[i])
    ensures r.Fail? ==> IsInstance(r.error, FileOperation) && FailCode(r) == Some(PATH_NOT_FOUND)
    ensures r.Fail? ==>
      exists i :: && 0 <= i < |inputs| && !Exists(fs, inputs[i])
                  && (forall j :: 0 <= j < i ==> Exists(fs, inputs[j]))
                  && r.error.err.context == map["path" := Str(inputs[i])]
    decreases |inputs|
  {
    if |inputs| == 0 then Pass
    else
      var rest := ValidateInputs(fs, inputs[1..]);
      AndThen(ValidateFileOrDirectoryExists(fs, inputs[0], "入力パス(" + inputs[0] + ")"), rest)
  }

  /** `--mode convert` without an output. */
  predicate ConvertMissingOutput(a: Args) {
    a.mode == "convert" && !Truthy(OptStr(a.output))
  }

  /** `--mode batch` without input paths. */
  predicate BatchMissingInput(a: Args) {
    a.mode == "batch" && |a.input| == 0
  }

  /** The checks of `_validate_dependencies` before the mutual exclusions:
      convert needs an output, batch needs inputs, every input must exist. */
  function ValidateRequirements(a: Args, fs: FileSystem): (r: Outcome<Exception>)
    ensures ConvertMissingOutput(a) ==> FailCode(r) == Some(CONDITIONAL_REQUIRED_ERROR)
    ensures !ConvertMissingOutput(a) && BatchMissingInput(a) ==> FailCode(r) == Some(CONDITIONAL_REQUIRED_ERROR)
    ensures ConvertMissingOutput(a) ==> r == ValidateConditionalRequired(true, OptStr(a.output), "--mode convert", "--output")
    ensures !ConvertMissingOutput(a) && BatchMissingInput(a) ==>
      r == ValidateConditionalRequired(true, StrList(a.input), "--mode batch", "入力ファイルまたはディレクトリ")
    ensures a.mode != "convert" && a.mode != "batch" ==> FailCode(r) != Some(CONDITIONAL_REQUIRED_ERROR)
    ensures !ConvertMissingOutput(a) && !BatchMissingInput(a) ==> r == ValidateInputs(fs, a.input)
    ensures r.Pass? <==>
      !ConvertMissingOutput(a) && !BatchMissingInput(a) && forall i :: 0 <= i < |a.input| ==> Exists(fs, a.input[i])
  {
    var convert := ValidateConditionalRequired(a.mode == "convert", OptStr(a.output), "--mode convert", "--output");
    var batch := ValidateConditionalRequired(a.mode == "batch", StrList(a.input), "--mode batch", "入力ファイルまたはディレクトリ");
    var inputs := if Truthy(StrList(a.input)) then ValidateInputs(fs, a.input) else Pass;
    AndThen(convert, AndThen(batch, inputs))
  }

  /** `_validate_dependencies` as intended: after the requirements, `--quiet` and
      `--verbose` exclude each other, then `--dry-run` and `--force` do. */
  function ValidateDependencies(a: Args, fs: FileSystem): (r: Outcome<Exception>)
    ensures ValidateRequirements(a, fs).Fail? ==> r == ValidateRequirements(a, fs)
    ensures r.Pass? <==> ValidateRequirements(a, fs).Pass? && !(a.quiet && a.verbose > 0) && !(a.dryRun && a.force)
    ensures ValidateRequirements(a, fs).Pass? && a.quiet && a.verbose > 0 ==>
      FailCode(r) == Some(MUTUALLY_EXCLUSIVE_ARGS)
      && r.error.err.context == map["specified_args" := StrList(["--quiet", "--verbose"])]
    ensures ValidateRequirements(a, fs).Pass? && !(a.quiet && a.verbose > 0) && a.dryRun && a.force ==>
      FailCode(r) == Some(MUTUALLY_EXCLUSIVE_ARGS)
      && r.error.err.context == map["specified_args" := StrList(["--dry-run", "--force"])]
  {
    TwoFlagsExclusive(Bool(a.quiet), Bool(a.verbose > 0), "--quiet", "--verbose");
    TwoFlagsExclusive(Bool(a.dryRun), Bool(a.force), "--dry-run", "--force");
    AndThen(ValidateRequirements(a, fs),
      AndThen(ValidateMutuallyExclusive([Bool(a.quiet), Bool(a.verbose > 0)], Some(["--quiet", "--verbose"])),
              ValidateMutuallyExclusive([Bool(a.dryRun), Bool(a.force)], Some(["--dry-run", "--force"]))))
  }

  /** `_validate_dependencies` as written: each exclusion check receives one
      tuple as its only positional value, so it has a single truthy value and
      never fails. */
  function ValidateDependenciesAsWritten(a: Args, fs: FileSystem): (r: Outcome<Exception>)
    ensures r == ValidateRequirements(a, fs)
    ensures FailCode(r) != Some(MUTUALLY_EXCLUSIVE_ARGS)
  {
    AndThen(ValidateRequirements(a, fs),
      AndThen(ValidateMutuallyExclusive([List([Bool(a.quiet), Bool(a.verbose > 0)])], Some(["--quiet", "--verbose"])),
              ValidateMutuallyExclusive([List([Bool(a.dryRun), Bool(a.force)])], Some(["--dry-run", "--force"]))))
  }

  /** The missed exclusion: `--quiet -v` (or `--dry-run --force`) passes the
      dependency checks as written but fails them as intended. */
  lemma ExclusionMissedAsWritten(a: Args, fs: FileSystem)
    requires ValidateRequirements(a, fs).Pass?
    requires (a.quiet && a.verbose > 0) || (a.dryRun && a.force)
    ensures ValidateDependenciesAsWritten(a, fs).Pass?
    ensures FailCode(ValidateDependencies(a, fs)) == Some(MUTUALLY_EXCLUSIVE_ARGS)
  {
  }

  /** A truthy optional string. */
  predicate Given(o: Option<string>) {
    o.Some? && o.value != ""
  }

  /** No output directory is given, or it is an existing writable directory. */
  predicate OutputReady(a: Args, fs: FileSystem) {
    !Given(a.output) || (IsDir(fs, a.output.value) && a.output.value in fs.writable)
  }

  /** The checks of `_validate_file_paths` after the configuration file: the
      output must already be a writable directory; the log directory is created
      if missing and must be writable. */
  function ValidateOutputAndLogDir(a: Args, fs: FileSystem): (r: Checked)
    ensures Given(a.output) && !Exists(fs, a.output.value) ==>
      FailCode(r.outcome) == Some(DIRECTORY_NOT_FOUND) && r.fs == fs
    ensures !OutputReady(a, fs) || !Given(a.logDir) ==> r.fs == fs
    ensures !OutputReady(a, fs) ==> r.outcome == ValidateWritableDirectory(fs, a.output.value, "出力ディレクトリ", false).outcome
    ensures OutputReady(a, fs) && Given(a.logDir) ==> r == ValidateWritableDirectory(fs, a.logDir.value, "ログディレクトリ", true)
    ensures r.outcome.Pass? <==>
      (Given(a.output) ==> IsDir(fs, a.output.value) && a.output.value in fs.writable)
      && (Given(a.logDir) ==>
            (IsDir(fs, a.logDir.value) || (!Exists(fs, a.logDir.value) && a.logDir.value !in fs.mkdirFailures))
            && a.logDir.value in fs.writable)
  {
    var output :=
      if Truthy(OptStr(a.output)) then ValidateWritableDirectory(fs, a.output.value, "出力ディレクトリ", false)
      else Checked(fs, Pass);
    if output.outcome.Fail? then output
    else if Truthy(OptStr(a.logDir)) then ValidateWritableDirectory(fs, a.logDir.value, "ログディレクトリ", true)
    else Checked(fs, Pass)
  }

  /** `_validate_file_paths` as intended: the configuration file is checked only
      when it is not the default one, compared after resolution like the argument itself. */
  function ValidateFilePaths(a: Args, fs: FileSystem, resolve: Path -> Path): (r: Checked)
    ensures a.config != resolve(DEFAULT_CONFIG_FILENAME) && !IsFile(fs, a.config) ==>
      r == Checked(fs, ValidateFileExists(fs, a.config, "設定ファイル"))
    ensures a.config == resolve(DEFAULT_CONFIG_FILENAME) || IsFile(fs, a.config) ==> r == ValidateOutputAndLogDir(a, fs)
  {
    var config :=
      if a.config != resolve(DEFAULT_CONFIG_FILENAME) then ValidateFileExists(fs, a.config, "設定ファイル") else Pass;
    if config.Fail? then Checked(fs, config) else ValidateOutputAndLogDir(a, fs)
  }

  /** `_validate_file_paths` as written in its configuration comparison: the
      resolved configuration path is compared with the relative default name, so
      the configuration file is always checked. The output and log-directory
      checks are the intended ones. */
  function ValidateFilePathsAsWritten(a: Args, fs: FileSystem): (r: Checked)
    ensures a.config != DEFAULT_CONFIG_FILENAME && !IsFile(fs, a.config) ==>
      r == Checked(fs, ValidateFileExists(fs, a.config, "設定ファイル"))
    ensures a.config == DEFAULT_CONFIG_FILENAME || IsFile(fs, a.config) ==> r == ValidateOutputAndLogDir(a, fs)
  {
    var config :=
      if a.config != DEFAULT_CONFIG_FILENAME then ValidateFileExists(fs, a.config, "設定ファイル") else Pass;
    if config.Fail? then Checked(fs, config) else ValidateOutputAndLogDir(a, fs)
  }

  /** The missed default: with no `--config` given and no configuration file
      present, the check as written reports FILE_NOT_FOUND for the default file,
      which the intended check skips. */
  lemma DefaultConfigCheckedAsWritten(a: Args, fs: FileSystem, resolve: Path -> Path)
    requires a.config == DEFAULT_CONFIG_FILENAME
    requires StartsWith(resolve(DEFAULT_CONFIG_FILENAME), "/")
    requires !Exists(fs, resolve(DEFAULT_CONFIG_FILENAME))
    ensures FailCode(ValidateFilePathsAsWritten(PostProcess(a, resolve), fs).outcome) == Some(FILE_NOT_FOUND)
    ensures ValidateFilePaths(PostProcess(a, resolve), fs, resolve) == ValidateOutputAndLogDir(PostProcess(a, resolve), fs)
  {
    var p := PostProcess(a, resolve);
    assert p.config == resolve(DEFAULT_CONFIG_FILENAME);
    assert DEFAULT_CONFIG_FILENAME[0] == 'a';
    assert p.config != DEFAULT_CONFIG_FILENAME;
  }

  /** The result of `validate_args`: the arguments or the error, and the filesystem afterwards. */
  datatype Validated = Validated(result: Result<Args, Exception>, fs: FileSystem)

  /** `validate_args`: post-processing, then the dependency checks, then the
      file-path checks; the arguments are returned only if every check passes. */
  function ValidateArgs(parsed: Args, fs: FileSystem, resolve: Path -> Path): (r: Validated)
    ensures var a := PostProcess(parsed, resolve);
      r.result.Success? <==> ValidateDependencies(a, fs).Pass? && ValidateFilePaths(a, fs, resolve).outcome.Pass?
    ensures r.result.Success? ==> r.result.value == PostProcess(parsed, resolve)
    ensures ValidateDependencies(PostProcess(parsed, resolve), fs).Fail? ==>
      r == Validated(Failure(ValidateDependencies(PostProcess(parsed, resolve), fs).error), fs)
    ensures ValidateDependencies(PostProcess(parsed, resolve), fs).Pass? ==>
      r.fs == ValidateFilePaths(PostProcess(parsed, resolve), fs, resolve).fs
    ensures (ValidateDependencies(PostProcess(parsed, resolve), fs).Pass?
             && ValidateFilePaths(PostProcess(parsed, resolve), fs, resolve).outcome.Fail?) ==>
      r.result == Failure(ValidateFilePaths(PostProcess(parsed, resolve), fs, resolve).outcome.error)
  {
    var a := PostProcess(parsed, resolve);
    var deps := ValidateDependencies(a, fs);
    if deps.Fail? then Validated(Failure(deps.error), fs)
    else
      var paths := ValidateFilePaths(a, fs, resolve);
      if paths.outcome.Fail? then Validated(Failure(paths.outcome.error), paths.fs)
      else Validated(Success(a), paths.fs)
  }

  /** `--mode convert` without `--output` is rejected with CONDITIONAL_REQUIRED_ERROR. */
  lemma ConvertRequiresOutput(parsed: Args, fs: FileSystem, resolve: Path -> Path)
    requires parsed.mode == "convert" && !Given(parsed.output)
    ensures ValidateArgs(parsed, fs, resolve).result.Failure?
    ensures CodeOf(ValidateArgs(parsed, fs, resolve).result.error) == Some(CONDITIONAL_REQUIRED_ERROR)
  {
    assert ConvertMissingOutput(PostProcess(parsed, resolve));
  }

  /** `--mode batch` without input paths is rejected with CONDITIONAL_REQUIRED_ERROR. */
  lemma BatchRequiresInput(parsed: Args, fs: FileSystem, resolve: Path -> Path)
    requires parsed.mode == "batch" && |parsed.input| == 0
    ensures ValidateArgs(parsed, fs, resolve).result.Failure?
    ensures CodeOf(ValidateArgs(parsed, fs, resolve).result.error) == Some(CONDITIONAL_REQUIRED_ERROR)
  {
    assert BatchMissingInput(PostProcess(parsed, resolve));
  }

  /** The attributes the argparse declarations create; `--version` creates none. */
  const DeclaredAttributes: set<string> := {"config", "log_level", "log_file", "debug", "mode", "input", "output", "format"}

  /** `getattr(args, name)`: a missing attribute raises `AttributeError`. */
  function Attr(ns: map<string, Json>, name: string): (r: Result<Json, Exception>)
    ensures r.Success? <==> name in ns
    ensures r.Success? ==> r.value == ns[name]
    ensures r.Failure? ==> r.error.Foreign? && r.error.typeName == "AttributeError"
  {
    if name in ns then Success(ns[name])
    else Failure(Foreign("AttributeError", "'Namespace' object has no attribute '" + name + "'"))
  }

  /** A present, truthy path attribute is replaced by its resolved form; a non-string raises `TypeError`. */
  function ResolveAttr(ns: map<string, Json>, name: string, resolve: Path -> Path): Result<map<string, Json>, Exception> {
    if name in ns && Truthy(ns[name]) then
      if ns[name].Str? then Success(ns[name := Str(resolve(ns[name].s))])
      else Failure(Foreign("TypeError", "expected str, bytes or os.PathLike object"))
    else Success(ns)
  }

  /** The log-level part of `_post_process_args` as written: `args.debug`, then `args.verbose`. */
  function LevelStep(ns: map<string, Json>): Result<map<string, Json>, Exception> {
    var debug :- Attr(ns, "debug");
    if Truthy(debug) then Success(ns["log_level" := Str("DEBUG")])
    else
      var verbose :- Attr(ns, "verbose");
      if !(verbose.Int? || verbose.Bool?) then Failure(Foreign("TypeError", "'>=' not supported"))
      else if Numeric(verbose) >= 2 then Success(ns["log_level" := Str("DEBUG")])
      else if Numeric(verbose) == 1 then Success(ns["log_level" := Str("INFO")])
      else Success(ns)
  }

  /** The `args.quiet` part of `_post_process_args` as written. */
  function QuietStep(ns: map<string, Json>): Result<map<string, Json>, Exception> {
    var quiet :- Attr(ns, "quiet");
    Success(if Truthy(quiet) then ns["log_level" := Str("ERROR")]["no_console" := Bool(true)] else ns)
  }

  /** The path resolution part of `_post_process_args` as written. */
  function ResolveStep(ns: map<string, Json>, resolve: Path -> Path): Result<map<string, Json>, Exception> {
    var withConfig :- ResolveAttr(ns, "config", resolve);
    var withOutput :- ResolveAttr(withConfig, "output", resolve);
    ResolveAttr(withOutput, "log_file", resolve)
  }

  /** `_post_process_args` as written, over the argparse namespace as a map from
      attribute names to values: every attribute read goes through `getattr`. */
  function PostProcessNamespace(ns: map<string, Json>, resolve: Path -> Path): Result<map<string, Json>, Exception> {
    var leveled :- LevelStep(ns);
    var quieted :- QuietStep(leveled);
    ResolveStep(quieted, resolve)
  }

  /** As declared, the namespace lacks `verbose` and `quiet`, so post-processing
      raises `AttributeError` for every command line: with `--debug` at `quiet`,
      without it at `verbose`. */
  lemma PostProcessFailsAsDeclared(ns: map<string, Json>, resolve: Path -> Path)
    requires ns.Keys == DeclaredAttributes
    ensures PostProcessNamespace(ns, resolve).Failure?
    ensures PostProcessNamespace(ns, resolve).error.Foreign?
    ensures PostProcessNamespace(ns, resolve).error.typeName == "AttributeError"
  {
    assert "verbose" !in ns && "quiet" !in ns;
    assert "quiet" !in ns["log_level" := Str("DEBUG")];
  }

  /** The namespace of the intended record before post-processing, with every
      attribute the code reads declared. */
  function ToNamespace(a: Args): map<string, Json> {
    map["config" := Str(a.config), "log_level" := Str(a.logLevel), "log_file" := Str(a.logFile),
        "debug" := Bool(a.debug), "mode" := Str(a.mode), "input" := StrList(a.input),
        "output" := OptStr(a.output), "format" := Str(a.format), "verbose" := Int(a.verbose),
        "quiet" := Bool(a.quiet), "dry_run" := Bool(a.dryRun), "force" := Bool(a.force),
        "log_dir" := OptStr(a.logDir)]
  }

  /** `m` and `m'` agree outside `keys`. */
  ghost predicate SameExcept(m: map<string, Json>, m': map<string, Json>, keys: set<string>) {
    forall k :: k !in keys ==> (k in m <==> k in m') && (k in m ==> m[k] == m'[k])
  }

  /** The level step on a namespace that declares `debug` and `verbose`. */
  lemma LevelStepDeclared(ns: map<string, Json>)
    requires "debug" in ns && ns["debug"].Bool? && "verbose" in ns && ns["verbose"].Int? && ns["verbose"].i >= 0
    requires "log_level" in ns && ns["log_level"].Str?
    ensures LevelStep(ns).Success?
    ensures SameExcept(LevelStep(ns).value, ns, {"log_level"})
    ensures var v := ns["verbose"].i;
      LevelStep(ns).value["log_level"] ==
        Str(if ns["debug"].b then "DEBUG" else if v >= 2 then "DEBUG" else if v == 1 then "INFO" else ns["log_level"].s)
  {
  }

  /** The quiet step on a namespace that declares `quiet`. */
  lemma QuietStepDeclared(ns: map<string, Json>)
    requires "quiet" in ns && ns["quiet"].Bool? && "log_level" in ns
    ensures QuietStep(ns).Success?
    ensures SameExcept(QuietStep(ns).value, ns, {"log_level", "no_console"})
    ensures QuietStep(ns).value["log_level"] == if ns["quiet"].b then Str("ERROR") else ns["log_level"]
    ensures "no_console" in QuietStep(ns).value <==> ns["quiet"].b || "no_console" in ns
    ensures ns["quiet"].b ==> QuietStep(ns).value["no_console"] == Bool(true)
    ensures !ns["quiet"].b && "no_console" in ns ==> QuietStep(ns).value["no_console"] == ns["no_console"]
  {
  }

  /** Resolving a string-or-`None` attribute. */
  lemma ResolveAttrDeclared(ns: map<string, Json>, name: string, resolve: Path -> Path)
    requires name in ns && (ns[name].Str? || ns[name].Null?)
    ensures ResolveAttr(ns, name, resolve).Success?
    ensures SameExcept(ResolveAttr(ns, name, resolve).value, ns, {name})
    ensures name in ResolveAttr(ns, name, resolve).value
    ensures ResolveAttr(ns, name, resolve).value[name] ==
      if ns[name].Str? && ns[name].s != "" then Str(resolve(ns[name].s)) else ns[name]
  {
  }

  /** Resolving the three path attributes when each holds a string or `None`. */
  lemma ResolveStepDeclared(ns: map<string, Json>, resolve: Path -> Path)
    requires "config" in ns && ns["config"].Str? && "log_file" in ns && ns["log_file"].Str?
    requires "output" in ns && (ns["output"].Str? || ns["output"].Null?)
    ensures ResolveStep(ns, resolve).Success?
    ensures var r := ResolveStep(ns, resolve).value;
      && SameExcept(r, ns, {"config", "output", "log_file"})
      && "config" in r && r["config"] == (if ns["config"].s != "" then Str(resolve(ns["config"].s)) else ns["config"])
      && "output" in r && r["output"] == (if ns["output"].Str? && ns["output"].s != "" then Str(resolve(ns["output"].s)) else ns["output"])
      && "log_file" in r && r["log_file"] == (if ns["log_file"].s != "" then Str(resolve(ns["log_file"].s)) else ns["log_file"])
  {
    ResolveAttrDeclared(ns, "config", resolve);
    var n1 := ResolveAttr(ns, "config", resolve).value;
    ResolveAttrDeclared(n1, "output", resolve);
    var n2 := ResolveAttr(n1, "output", resolve).value;
    ResolveAttrDeclared(n2, "log_file", resolve);
  }

  /** The namespace the record model starts from declares what the steps read. */
  lemma ToNamespaceDeclares(a: Args)
    ensures Declares(ToNamespace(a), a)
  {
  }

  /** A namespace that declares what the steps read and holds `a`'s values. */
  predicate Declares(ns: map<string, Json>, a: Args) {
    && "debug" in ns && ns["debug"] == Bool(a.debug)
    && "verbose" in ns && ns["verbose"] == Int(a.verbose)
    && "quiet" in ns && ns["quiet"] == Bool(a.quiet)
    && "log_level" in ns && ns["log_level"] == Str(a.logLevel)
    && "no_console" !in ns
    && "config" in ns && ns["config"] == Str(a.config)
    && "output" in ns && ns["output"] == OptStr(a.output)
    && "log_file" in ns && ns["log_file"] == Str(a.logFile)
  }

  /** Post-processing a namespace that declares every attribute it reads. */
  lemma PostProcessDeclared(ns: map<string, Json>, a: Args, resolve: Path -> Path)
    requires Declares(ns, a)
    ensures PostProcessNamespace(ns, resolve).Success?
    ensures var r := PostProcessNamespace(ns, resolve).value;
      var p := PostProcess(a, resolve);
      && "log_level" in r && r["log_level"] == Str(p.logLevel)
      && ("no_console" in r <==> a.quiet)
      && (a.quiet ==> r["no_console"] == Bool(p.noConsole))
      && "config" in r && r["config"] == Str(p.config)
      && "output" in r && r["output"] == OptStr(p.output)
      && "log_file" in r && r["log_file"] == Str(p.logFile)
  {
    LevelStepDeclared(ns);
    var n1 := LevelStep(ns).value;
    QuietStepDeclared(n1);
    var n2 := QuietStep(n1).value;
    ResolveStepDeclared(n2, resolve);
  }

  /** With the attributes declared, the code as written computes what the record model does. */
  lemma PostProcessAgreesWhenDeclared(a: Args, resolve: Path -> Path)
    ensures PostProcessNamespace(ToNamespace(a), resolve).Success?
    ensures var ns := PostProcessNamespace(ToNamespace(a), resolve).value;
      var p := PostProcess(a, resolve);
      && "log_level" in ns && ns["log_level"] == Str(p.logLevel)
      && ("no_console" in ns <==> a.quiet)
      && (a.quiet ==> ns["no_console"] == Bool(p.noConsole))
      && "config" in ns && ns["config"] == Str(p.config)
      && "output" in ns && ns["output"] == OptStr(p.output)
      && "log_file" in ns && ns["log_file"] == Str(p.logFile)
  {
    ToNamespaceDeclares(a);
    PostProcessDeclared(ToNamespace(a), a, resolve);
  }

  /** A key with each '-' replaced by '_'. */
  function Underscored(key: string): (r: string)
    ensures |r| == |key| && '-' !in r
    ensures '-' !in key ==> r == key
    ensures forall i :: 0 <= i < |key| && key[i] == '-' ==> r[i] == '_'
    ensures forall i :: 0 <= i < |key| && key[i] != '-' ==> r[i] == key[i]
  {
    seq(|key|, i requires 0 <= i < |key| => if key[i] == '-' then '_' else key[i])
  }

  /** No later entry with a value maps to the same key as entry `i` (among the first `n`). */
  predicate LastForKey(items: seq<(string, Json)>, i: nat, n: nat)
    requires i < n <= |items|
  {
    forall j :: i < j < n && items[j].1 != Null ==> Underscored(items[j].0) != Underscored(items[i].0)
  }

  /** `get_config_dict`: the entries of `vars(args)` (in order) whose value is not
      `None`, with '-' replaced by '_' in their keys; a later entry wins a clash. */
  method GetConfigDict(items: seq<(string, Json)>) returns (config: map<string, Json>)
    ensures forall k :: k in config <==>
      exists i :: 0 <= i < |items| && items[i].1 != Null && Underscored(items[i].0) == k
    ensures forall i :: 0 <= i < |items| && items[i].1 != Null && LastForKey(items, i, |items|) ==>
      Underscored(items[i].0) in config && config[Underscored(items[i].0)] == items[i].1
    ensures forall k :: k in config ==> '-' !in k && config[k] != Null
  {
    config := map[];
    var n := 0;
    while n < |items|
      invariant 0 <= n <= |items|
      invariant forall k :: k in config <==>
        exists i :: 0 <= i < n && items[i].1 != Null && Underscored(items[i].0) == k
      invariant forall i :: 0 <= i < n && items[i].1 != Null && LastForKey(items, i, n) ==>
        Underscored(items[i].0) in config && config[Underscored(items[i].0)] == items[i].1
      invariant forall k :: k in config ==> '-' !in k && config[k] != Null
    {
      var (key, value) := items[n];
      if value != Null {
        config := config[Underscored(key) := value];
      }
      n := n + 1;
    }
  }
}

=== FILE: config.dfy ===
/** The in-memory configuration tree of `AppConfig`: deep merge, `update`, and
    the dotted-path accessors `get` and `set`. Loading and saving are not modelled. */
module Config {

  import opened Wrappers
  import opened Json
  import opened Errors
  import opened KeyPath

  /** A configuration: a string-keyed dictionary whose values may nest further dictionaries. */
  type Tree = map<string, Json>

  /** Both sides hold a dictionary at `k`, so `_merge_configs` recurses there. */
  predicate BothObjects(base: Tree, updates: Tree, k: string) {
    k in base && k in updates && base[k].Object? && updates[k].Object?
  }

  /** `_merge_configs(base, updates)`: every key of either side is kept; where both
      hold a dictionary the two are merged recursively, otherwise the update wins. */
  function Merge(base: Tree, updates: Tree): (r: Tree)
    ensures r.Keys == base.Keys + updates.Keys
    ensures forall k :: k in base && k !in updates ==> r[k] == base[k]
    ensures forall k :: k in updates && !BothObjects(base, updates, k) ==> r[k] == updates[k]
    ensures forall k :: BothObjects(base, updates, k) ==>
      r[k].Object? && r[k].fields.Keys == base[k].fields.Keys + updates[k].fields.Keys
    ensures forall k :: BothObjects(base, updates, k) ==> r[k] == Object(Merge(base[k].fields, updates[k].fields))
    decreases Object(updates)
  {
    map k | k in base.Keys + updates.Keys ::
      if k in updates then
        if BothObjects(base, updates, k) then Object(Merge(base[k].fields, updates[k].fields))
        else updates[k]
      else base[k]
  }

  /** `update(updates)`: the configuration becomes its merge with the updates. */
  function Update(config: Tree, updates: Tree): (r: Tree)
    ensures r.Keys == config.Keys + updates.Keys
    ensures forall k :: k in config && k !in updates ==> r[k] == config[k]
    ensures forall k :: k in updates && !BothObjects(config, updates, k) ==> r[k] == updates[k]
    ensures forall k :: BothObjects(config, updates, k) ==> r[k] == Object(Merge(config[k].fields, updates[k].fields))
  {
    Merge(config, updates)
  }

  /** Walking `keys` down from `v`: each component must name a key of a dictionary. */
  function Walk(v: Json, keys: seq<string>): Option<Json>
    decreases |keys|
  {
    if |keys| == 0 then Some(v)
    else if v.Object? && keys[0] in v.fields then Walk(v.fields[keys[0]], keys[1..])
    else None
  }

  /** The value reached from the root of the configuration along `keys`, if any. */
  function GetPath(t: Tree, keys: seq<string>): Option<Json> {
    Walk(Object(t), keys)
  }

  /** `get(key_path, default)`: a missing component, or an intermediate value
      that is not a dictionary, yields the default instead of an error. */
  function Get(t: Tree, keyPath: string, default: Json): (r: Json)
    ensures '.' !in keyPath ==> r == (if keyPath in t then t[keyPath] else default)
  {
    if '.' !in keyPath then
      SplitPlain(keyPath);
      GetPathCons(t, [keyPath]);
      GetPath(t, Split(keyPath)).GetOr(default)
    else GetPath(t, Split(keyPath)).GetOr(default)
  }

  /** `get` on a dotted path of dot-free components walks exactly those components. */
  lemma GetJoined(t: Tree, keys: seq<string>, default: Json)
    requires |keys| >= 1 && forall i :: 0 <= i < |keys| ==> '.' !in keys[i]
    ensures Get(t, Join(keys), default) == GetPath(t, keys).GetOr(default)
  {
    SplitJoin(keys);
  }

  /** A present key holding `None` reads as `None`, not as the default. */
  lemma GetPresentNull(t: Tree, key: string, default: Json)
    requires '.' !in key && key in t && t[key] == Null
    ensures Get(t, key, default) == Null
  {
  }

  /** `get` resolves its first component and continues with the rest of the path. */
  lemma GetDotted(t: Tree, first: string, rest: string, default: Json)
    requires '.' !in first
    ensures Get(t, first + "." + rest, default) ==
      if first in t && t[first].Object? then Get(t[first].fields, rest, default) else default
  {
    SplitDotted(first, rest);
    var ks := Split(first + "." + rest);
    assert ks[0] == first && ks[1..] == Split(rest);
    GetPathCons(t, ks);
  }

  /** Some proper prefix of `keys` reaches a value that is not a dictionary. */
  predicate Blocked(t: Tree, keys: seq<string>) {
    exists i :: 1 <= i < |keys| && GetPath(t, keys[..i]).Some? && !GetPath(t, keys[..i]).value.Object?
  }

  /** `set` along a path of components: missing intermediate dictionaries are
      created; an existing intermediate that is not a dictionary fails, before
      anything has been changed. */
  function SetPath(t: Tree, keys: seq<string>, v: Json): (r: Option<Tree>)
    requires |keys| >= 1
    ensures r.Some? ==> GetPath(r.value, keys) == Some(v)
    ensures r.Some? ==> r.value.Keys == t.Keys + {keys[0]}
    ensures r.Some? ==> forall k :: k in t && k != keys[0] ==> r.value[k] == t[k]
    decreases |keys|
  {
    var k := keys[0];
    if |keys| == 1 then
      GetPathCons(t[k := v], keys);
      assert keys[1..] == [];
      Some(t[k := v])
    else
      var sub := if k !in t then Some(map[]) else if t[k].Object? then Some(t[k].fields) else None;
      match sub
      case None => None
      case Some(m) =>
        match SetPath(m, keys[1..], v)
        case None => None
        case Some(m') => Some(t[k := Object(m')])
  }

  /** `set(key_path, value)`; the `TypeError` of a non-dictionary intermediate is an error result. */
  function Set(t: Tree, keyPath: string, v: Json): (r: Result<Tree, Exception>)
    ensures r.Success? <==> !Blocked(t, Split(keyPath))
    ensures r.Success? ==> forall d :: Get(r.value, keyPath, d) == v
    ensures r.Failure? ==> r.error == Foreign("TypeError", "")
  {
    SetFailsIffBlocked(t, Split(keyPath), v);
    match SetPath(t, Split(keyPath), v)
    case Some(t') => Success(t')
    case None => Failure(Foreign("TypeError", ""))
  }

  /** Reading through the first component of a path. */
  lemma GetPathCons(t: Tree, keys: seq<string>)
    requires |keys| >= 1
    ensures GetPath(t, keys) ==
      if keys[0] in t then Walk(t[keys[0]], keys[1..]) else None
  {
  }

  /** `set` fails exactly when an existing intermediate value is not a dictionary. */
  lemma {:induction false} SetFailsIffBlocked(t: Tree, keys: seq<string>, v: Json)
    requires |keys| >= 1
    ensures SetPath(t, keys, v).None? <==> Blocked(t, keys)
    decreases |keys|
  {
    var k := keys[0];
    if |keys| == 1 {
      assert !Blocked(t, keys);
    } else if k !in t {
      SetFailsIffBlocked(map[], keys[1..], v);
      assert !Blocked(map[], keys[1..]) by {
        forall i | 1 <= i < |keys[1..]| ensures GetPath(map[], keys[1..][..i]).None? {
          GetPathCons(map[], keys[1..][..i]);
        }
      }
      assert !Blocked(t, keys) by {
        forall i | 1 <= i < |keys| ensures GetPath(t, keys[..i]).None? {
          GetPathCons(t, keys[..i]);
        }
      }
    } else if t[k].Object? {
      var m := t[k].fields;
      var rest := keys[1..];
      SetFailsIffBlocked(m, rest, v);
      forall i | 1 <= i < |keys|
        ensures GetPath(t, keys[..i]) == if i == 1 then Some(t[k]) else GetPath(m, rest[..i - 1])
      {
        GetPathCons(t, keys[..i]);
        assert keys[..i][1..] == rest[..i - 1];
      }
      if Blocked(m, rest) {
        var j :| 1 <= j < |rest| && GetPath(m, rest[..j]).Some? && !GetPath(m, rest[..j]).value.Object?;
        assert GetPath(t, keys[..j + 1]) == GetPath(m, rest[..j]);
      }
      if Blocked(t, keys) {
        var i :| 1 <= i < |keys| && GetPath(t, keys[..i]).Some? && !GetPath(t, keys[..i]).value.Object?;
        assert i != 1;
        assert GetPath(m, rest[..i - 1]) == GetPath(t, keys[..i]);
      }
    } else {
      GetPathCons(t, keys[..1]);
      assert GetPath(t, keys[..1]) == Some(t[k]);
    }
  }

  /** `p` is a prefix of `q`. */
  predicate IsPrefix(p: seq<string>, q: seq<string>) {
    |p| <= |q| && q[..|p|] == p
  }

  /** A common first component does not change which path is a prefix of the other. */
  lemma PrefixCons(k: string, a: seq<string>, b: seq<string>)
    ensures IsPrefix([k] + a, [k] + b) <==> IsPrefix(a, b)
  {
    if |a| <= |b| {
      assert ([k] + b)[..|a| + 1] == [k] + b[..|a|];
      assert ([k] + b[..|a|])[1..] == b[..|a|];
      assert ([k] + a)[1..] == a;
    }
  }

  /** `set(p, v)` leaves every path that is neither a prefix of `p` nor below `p` as it was. */
  lemma {:induction false} SetFrame(t: Tree, keys: seq<string>, v: Json, q: seq<string>)
    requires |keys| >= 1 && SetPath(t, keys, v).Some?
    requires !IsPrefix(q, keys) && !IsPrefix(keys, q)
    ensures GetPath(SetPath(t, keys, v).value, q) == GetPath(t, q)
    decreases |keys|
  {
    var r := SetPath(t, keys, v).value;
    var k := keys[0];
    assert |q| >= 1;
    GetPathCons(t, q);
    GetPathCons(r, q);
    if q[0] != k {
    } else {
      assert q[..1] == keys[..1];
      assert |keys| >= 2;
      assert |q| >= 2;
      var m := if k !in t then map[] else t[k].fields;
      var m' := SetPath(m, keys[1..], v).value;
      assert r[k] == Object(m');
      PrefixCons(k, q[1..], keys[1..]);
      PrefixCons(k, keys[1..], q[1..]);
      assert q == [k] + q[1..] && keys == [k] + keys[1..];
      SetFrame(m, keys[1..], v, q[1..]);
      GetPathCons(m, q[1..]);
    }
  }

  /** After `set(p, v)`, the value found at `p` followed by any path `s` is the one found in `v` along `s`. */
  lemma {:induction false} SetBelow(t: Tree, keys: seq<string>, v: Json, s: seq<string>)
    requires |keys| >= 1 && SetPath(t, keys, v).Some?
    ensures GetPath(SetPath(t, keys, v).value, keys + s) == Walk(v, s)
    decreases |keys|
  {
    var r := SetPath(t, keys, v).value;
    var k := keys[0];
    GetPathCons(r, keys + s);
    assert (keys + s)[0] == k;
    if |keys| == 1 {
      assert (keys + s)[1..] == s;
    } else {
      var m := if k !in t then map[] else t[k].fields;
      SetBelow(m, keys[1..], v, s);
      assert (keys + s)[1..] == keys[1..] + s;
    }
  }

  /** After a successful `set(p, v)`, `get(p, d)` returns `v`. */
  lemma GetAfterSet(t: Tree, keyPath: string, v: Json, d: Json)
    requires Set(t, keyPath, v).Success?
    ensures Get(Set(t, keyPath, v).value, keyPath, d) == v
  {
  }

  /** After `set`, every proper prefix of the path reaches a dictionary holding the
      next component; one that was missing before is a new dictionary holding only that component. */
  lemma {:induction false} SetCreatesIntermediate(t: Tree, keys: seq<string>, v: Json, i: nat)
    requires |keys| >= 1 && SetPath(t, keys, v).Some?
    requires 1 <= i < |keys|
    ensures var w := GetPath(SetPath(t, keys, v).value, keys[..i]);
      w.Some? && w.value.Object? && keys[i] in w.value.fields
    ensures GetPath(t, keys[..i]).None? ==>
      GetPath(SetPath(t, keys, v).value, keys[..i]).value.fields.Keys == {keys[i]}
    decreases |keys|
  {
    var r := SetPath(t, keys, v).value;
    var k := keys[0];
    var m := if k !in t then map[] else t[k].fields;
    var m' := SetPath(m, keys[1..], v).value;
    assert r[k] == Object(m');
    GetPathCons(r, keys[..i]);
    GetPathCons(t, keys[..i]);
    if i == 1 {
      assert keys[..1][1..] == [];
      assert keys[1..][0] == keys[1];
    } else {
      SetCreatesIntermediate(m, keys[1..], v, i - 1);
      assert keys[..i][1..] == keys[1..][..i - 1];
      GetPathCons(m, keys[1..][..i - 1]);
    }
  }

  /** Merging with an empty override returns the base unchanged, and merging
      into an empty base returns the override. */
  lemma MergeEmpty(t: Tree)
    ensures Merge(t, map[]) == t
    ensures Merge(map[], t) == t
  {
  }

  /** Merging a configuration with itself changes nothing. */
  lemma {:induction false} MergeIdempotent(t: Tree)
    ensures Merge(t, t) == t
    decreases Object(t)
  {
    forall k | BothObjects(t, t, k) ensures Merge(t[k].fields, t[k].fields) == t[k].fields {
      MergeIdempotent(t[k].fields);
    }
    assert forall k :: k in t ==> Merge(t, t)[k] == t[k];
  }

  /** Wherever the override reaches a value that does not merge into a dictionary
      of the base (it is no dictionary, or the base holds no dictionary there), the
      merge holds that value: lists and scalars replace whatever the base held, and
      a dictionary replaces a base scalar outright. */
  lemma {:induction false} MergeOverrideWins(base: Tree, updates: Tree, keys: seq<string>)
    requires |keys| >= 1
    requires GetPath(updates, keys).Some?
    requires !GetPath(updates, keys).value.Object? || GetPath(base, keys).None? || !GetPath(base, keys).value.Object?
    ensures GetPath(Merge(base, updates), keys) == GetPath(updates, keys)
    decreases |keys|
  {
    var k := keys[0];
    var r := Merge(base, updates);
    GetPathCons(updates, keys);
    GetPathCons(base, keys);
    GetPathCons(r, keys);
    if BothObjects(base, updates, k) {
      assert |keys| >= 2;
      GetPathCons(updates[k].fields, keys[1..]);
      GetPathCons(base[k].fields, keys[1..]);
      MergeOverrideWins(base[k].fields, updates[k].fields, keys[1..]);
      GetPathCons(Merge(base[k].fields, updates[k].fields), keys[1..]);
    }
  }

  /** Along `keys`, the override holds nothing but dictionaries, if anything. */
  predicate OpenAlong(updates: Tree, keys: seq<string>) {
    forall i :: 1 <= i < |keys| ==> GetPath(updates, keys[..i]).None? || GetPath(updates, keys[..i]).value.Object?
  }

  /** A base value survives the merge where the override has nothing at its path
      and holds nothing but dictionaries above it. */
  lemma {:induction false} MergeKeepsBase(base: Tree, updates: Tree, keys: seq<string>)
    requires |keys| >= 1
    requires GetPath(base, keys).Some? && GetPath(updates, keys).None?
    requires OpenAlong(updates, keys)
    ensures GetPath(Merge(base, updates), keys) == GetPath(base, keys)
    decreases |keys|
  {
    var k := keys[0];
    var r := Merge(base, updates);
    GetPathCons(base, keys);
    GetPathCons(updates, keys);
    GetPathCons(r, keys);
    if k in updates {
      assert |keys| >= 2;
      GetPathCons(updates, keys[..1]);
      assert GetPath(updates, keys[..1]) == Some(updates[k]);
      assert updates[k].Object?;
      var rest := keys[1..];
      GetPathCons(base, rest);
      assert base[k].Object?;
      forall i | 1 <= i < |rest|
        ensures GetPath(updates[k].fields, rest[..i]) == GetPath(updates, keys[..i + 1])
      {
        GetPathCons(updates, keys[..i + 1]);
        assert keys[..i + 1][1..] == rest[..i];
      }
      MergeKeepsBase(base[k].fields, updates[k].fields, rest);
    }
  }

  /** The built-in defaults of `AppConfig`, section by section. */
  const DefaultApp: Tree := map["name" := Str("APP"), "version" := Str("0.1.0"), "debug_mode" := Bool(false)]
  const DefaultLogging: Tree := map["level" := Str("INFO"), "log_dir" := Str("logs"),
                                    "enable_console" := Bool(true), "enable_file" := Bool(true)]
  const DefaultGui: Tree := map["window_width" := Int(800), "window_height" := Int(600), "theme" := Str("default")]
  const DefaultProcessing: Tree := map[
    "max_file_size" := Str("100MB"),
    "supported_formats" := List([Str("jpg"), Str("png"), Str("gif"), Str("bmp"), Str("tiff")]),
    "output_format" := Str("json")]
  const DefaultConfig: Tree := map["app" := Object(DefaultApp), "logging" := Object(DefaultLogging),
                                   "gui" := Object(DefaultGui), "processing" := Object(DefaultProcessing)]
}

=== FILE: config_examples.dfy ===
/** A worked example of merging a configuration file over the built-in defaults. */
module ConfigExamples {

  import opened Wrappers
  import opened Json
  import opened Config

  /** The override of the example: a file holding `{"logging": {"level": "ERROR"}}`. */
  const LevelOverride: Tree := map["logging" := Object(map["level" := Str("ERROR")])]

  /** The override names a level and nothing else under `logging`. */
  lemma OverrideShape()
    ensures GetPath(LevelOverride, ["logging", "level"]) == Some(Str("ERROR"))
    ensures GetPath(LevelOverride, ["logging", "enable_console"]).None?
    ensures OpenAlong(LevelOverride, ["logging", "enable_console"])
  {
    var level, console := ["logging", "level"], ["logging", "enable_console"];
    GetPathCons(LevelOverride, level);
    assert level[1..] == ["level"];
    GetPathCons(map["level" := Str("ERROR")], ["level"]);
    assert console[..1] == ["logging"];
    GetPathCons(LevelOverride, console[..1]);
    GetPathCons(LevelOverride, console);
    assert console[1..] == ["enable_console"];
    GetPathCons(map["level" := Str("ERROR")], ["enable_console"]);
  }

  /** The defaults turn console logging on. */
  lemma DefaultConsoleOn()
    ensures GetPath(DefaultConfig, ["logging", "enable_console"]) == Some(Bool(true))
  {
    var console := ["logging", "enable_console"];
    GetPathCons(DefaultConfig, console);
    assert console[1..] == ["enable_console"];
    GetPathCons(DefaultLogging, ["enable_console"]);
  }

  /** Merged over the defaults, that file sets the logging level and keeps the
      console default beside it. */
  lemma LoggingLevelOverride()
    ensures GetPath(Merge(DefaultConfig, LevelOverride), ["logging", "level"]) == Some(Str("ERROR"))
    ensures GetPath(Merge(DefaultConfig, LevelOverride), ["logging", "enable_console"]) == Some(Bool(true))
  {
    OverrideShape();
    DefaultConsoleOn();
    MergeOverrideWins(DefaultConfig, LevelOverride, ["logging", "level"]);
    MergeKeepsBase(DefaultConfig, LevelOverride, ["logging", "enable_console"]);
  }
}

=== FILE: error_validators.dfy ===
/** The second copy of four validators kept in the exception module. They raise
    the same classes with the same codes under the same conditions as the
    validation module's, but attach no context payload. */
module ErrorValidators {

  import opened Wrappers
  import opened Json
  import opened Text
  import opened Errors
  import opened FileSystem
  import Validation

  /** The same exception with its context payload dropped. */
  function WithoutContext(e: Exception): Exception {
    if e.App? then App(e.err.(context := map[])) else e
  }

  /** Two outcomes agree on everything but the context payload. */
  predicate SameButContext(dup: Outcome<Exception>, original: Outcome<Exception>) {
    && (dup.Pass? <==> original.Pass?)
    && (dup.Fail? ==> dup.error.App? && dup.error == WithoutContext(original.error))
  }

  /** `validate_not_none` of the exception module. */
  function ValidateNotNone(value: Json, name: string): (r: Outcome<Exception>)
    ensures SameButContext(r, Validation.ValidateNotNone(value, name))
    ensures r.Fail? ==> r.error.err.context == map[]
  {
    if value.Null? then
      Fail(App(NewAppError(ValidationKind, name + "がNoneです", Some(NULL_VALUE_ERROR), None)))
    else Pass
  }

  /** `validate_not_empty` of the exception module. */
  function ValidateNotEmpty(value: Json, name: string): (r: Outcome<Exception>)
    ensures SameButContext(r, Validation.ValidateNotEmpty(value, name))
    ensures r.Fail? ==> r.error.err.context == map[]
  {
    if !Truthy(value) then
      Fail(App(NewAppError(ValidationKind, name + "が空です", Some(EMPTY_VALUE_ERROR), None)))
    else Pass
  }

  /** `validate_range` of the exception module. */
  function ValidateRange(value: int, minVal: Option<int>, maxVal: Option<int>, name: string): (r: Outcome<Exception>)
    ensures SameButContext(r, Validation.ValidateRange(value, minVal, maxVal, name))
    ensures r.Fail? ==> r.error.err.context == map[]
  {
    if minVal.Some? && value < minVal.value then
      Fail(App(NewAppError(ValidationKind, name + "が最小値 " + IntToString(minVal.value) + " 未満です: " + IntToString(value),
                           Some(MIN_VALUE_ERROR), None)))
    else if maxVal.Some? && value > maxVal.value then
      Fail(App(NewAppError(ValidationKind, name + "が最大値 " + IntToString(maxVal.value) + " を超えています: " + IntToString(value),
                           Some(MAX_VALUE_ERROR), None)))
    else Pass
  }

  /** `validate_file_exists` of the exception module. */
  function ValidateFileExists(fs: FileSystem, path: Path, name: string): (r: Outcome<Exception>)
    ensures SameButContext(r, Validation.ValidateFileExists(fs, path, name))
    ensures r.Fail? ==> r.error.err.context == map[]
  {
    if !Exists(fs, path) then
      Fail(App(NewAppError(FileOperation, name + "が存在しません: " + path, Some(FILE_NOT_FOUND), None)))
    else if !IsFile(fs, path) then
      Fail(App(NewAppError(FileOperation, name + "がファイルではありません: " + path, Some(NOT_A_FILE), None)))
    else Pass
  }
}

=== FILE: errors.dfy ===
/** The application's exception hierarchy (`AppBaseException` and its four
    subclasses) and the builder of error responses. */
module Errors {

  import opened Wrappers
  import opened Json

  /** Machine-readable error codes raised by the validators. */
  const NULL_VALUE_ERROR := "NULL_VALUE_ERROR"
  const EMPTY_VALUE_ERROR := "EMPTY_VALUE_ERROR"
  const MIN_VALUE_ERROR := "MIN_VALUE_ERROR"
  const MAX_VALUE_ERROR := "MAX_VALUE_ERROR"
  const MIN_LENGTH_ERROR := "MIN_LENGTH_ERROR"
  const MAX_LENGTH_ERROR := "MAX_LENGTH_ERROR"
  const CHOICE_VALIDATION_ERROR := "CHOICE_VALIDATION_ERROR"
  const MUTUALLY_EXCLUSIVE_ARGS := "MUTUALLY_EXCLUSIVE_ARGS"
  const CONDITIONAL_REQUIRED_ERROR := "CONDITIONAL_REQUIRED_ERROR"
  const INVALID_FILE_EXTENSION := "INVALID_FILE_EXTENSION"
  const FILE_NOT_FOUND := "FILE_NOT_FOUND"
  const NOT_A_FILE := "NOT_A_FILE"
  const DIRECTORY_NOT_FOUND := "DIRECTORY_NOT_FOUND"
  const NOT_A_DIRECTORY := "NOT_A_DIRECTORY"
  const PATH_NOT_FOUND := "PATH_NOT_FOUND"
  const PERMISSION_DENIED := "PERMISSION_DENIED"
  const DIRECTORY_CREATION_ERROR := "DIRECTORY_CREATION_ERROR"

  /** Which class of the hierarchy an application error belongs to. The four
      subclasses add no fields of their own: they differ only in this tag. */
  datatype ErrorKind = Base | ConfigKind | FileOperation | ValidationKind | Processing

  /** An `AppBaseException`: message, optional error code and context map.
      The construction timestamp comes from the clock and is not modelled. */
  datatype AppError = AppError(kind: ErrorKind, message: string, code: Option<string>, context: map<string, Json>)

  /** Anything a Python `raise` can throw here: an application error, or a
      built-in exception such as `TypeError`, known by its class name. */
  datatype Exception = App(err: AppError) | Foreign(typeName: string, text: string)

  /** The `AppBaseException` constructor: message and code are stored as given,
      a missing context becomes the empty map. */
  function NewAppError(kind: ErrorKind, message: string, code: Option<string>, context: Option<map<string, Json>>): (e: AppError)
    ensures e.kind == kind && e.message == message && e.code == code
    ensures context.Some? ==> e.context == context.value
    ensures context.None? ==> e.context == map[]
  {
    AppError(kind, message, code, if context.Some? then context.value else map[])
  }

  /** A `ValidationError` raised with a code and a context payload. */
  function ValidationError(message: string, code: string, context: map<string, Json>): Exception {
    App(NewAppError(ValidationKind, message, Some(code), Some(context)))
  }

  /** A `FileOperationError` raised with a code and a context payload. */
  function FileOperationError(message: string, code: string, context: map<string, Json>): Exception {
    App(NewAppError(FileOperation, message, Some(code), Some(context)))
  }

  /** The error code carried by an exception, if it is an application error that has one. */
  function CodeOf(e: Exception): Option<string> {
    if e.App? then e.err.code else None
  }

  /** Python's `type(e).__name__`. */
  function ErrorTypeName(e: Exception): string {
    match e
    case Foreign(name, _) => name
    case App(a) =>
      match a.kind
      case Base => "AppBaseException"
      case ConfigKind => "ConfigError"
      case FileOperation => "FileOperationError"
      case ValidationKind => "ValidationError"
      case Processing => "ProcessingError"
  }

  /** Python's `str(e)`: an application error prints as its message. */
  function MessageOf(e: Exception): string {
    match e
    case Foreign(_, t) => t
    case App(a) => a.message
  }

  /** Python's `isinstance(e, cls)` for the classes of the hierarchy: every
      subclass instance is also an `AppBaseException`. */
  predicate IsInstance(e: Exception, cls: ErrorKind) {
    e.App? && (cls == Base || e.err.kind == cls)
  }

  /** `create_error_response`. The clock reading and the formatted traceback
      are supplied by the caller, because they depend on the interpreter state. */
  function CreateErrorResponse(e: Exception, includeTraceback: bool, includeContext: bool,
                               timestamp: string, tracebackText: string): (r: map<string, Json>)
    ensures "error" in r && r["error"] == Bool(true)
    ensures "error_type" in r && r["error_type"] == Str(ErrorTypeName(e))
    ensures "message" in r && r["message"] == Str(MessageOf(e))
    ensures "timestamp" in r && r["timestamp"] == Str(timestamp)
    ensures "error_code" in r <==> e.App? && e.err.code.Some? && e.err.code.value != ""
    ensures "error_code" in r ==> r["error_code"] == Str(e.err.code.value)
    ensures "context" in r <==> e.App? && includeContext && |e.err.context| > 0
    ensures "context" in r ==> r["context"] == Object(e.err.context)
    ensures "traceback" in r <==> includeTraceback
    ensures "traceback" in r ==> r["traceback"] == Str(tracebackText)
    ensures r.Keys <= {"error", "error_type", "message", "timestamp", "error_code", "context", "traceback"}
  {
    var response := map["error" := Bool(true), "error_type" := Str(ErrorTypeName(e)),
                         "message" := Str(MessageOf(e)), "timestamp" := Str(timestamp)];
    var withCode :=
      if IsInstance(e, Base) && e.err.code.Some? && Truthy(Str(e.err.code.value))
      then response["error_code" := Str(e.err.code.value)] else response;
    var withContext :=
      if IsInstance(e, Base) && includeContext && Truthy(Object(e.err.context))
      then withCode["context" := Object(e.err.context)] else withCode;
    if includeTraceback then withContext["traceback" := Str(tracebackText)] else withContext
  }
}

=== FILE: filesystem.dfy ===
/** An abstract filesystem: the part of the operating system the path
    validators observe (existence, kind, write permission) and change (mkdir). */
module FileSystem {

  import opened Wrappers

  /** Paths are opaque strings; no normalisation or parent structure is modelled. */
  type Path = string

  datatype Kind = File | Dir

  /** Why `Path.mkdir` raised: a `PermissionError`, or another `OSError`. */
  datatype MkdirFailure = PermissionFailure | OsFailure(reason: string)

  /** `entries` holds every existing path and its kind; `writable` the paths for
      which `os.access(p, os.W_OK)` holds; `mkdirFailures` the paths whose creation
      the operating system would refuse, and how. */
  datatype FileSystem = FileSystem(entries: map<Path, Kind>, writable: set<Path>, mkdirFailures: map<Path, MkdirFailure>)

  /** `Path(p).exists()` */
  predicate Exists(fs: FileSystem, p: Path) {
    p in fs.entries
  }

  /** `Path(p).is_file()`: false for a missing path. */
  predicate IsFile(fs: FileSystem, p: Path) {
    p in fs.entries && fs.entries[p] == File
  }

  /** `Path(p).is_dir()`: false for a missing path. */
  predicate IsDir(fs: FileSystem, p: Path) {
    p in fs.entries && fs.entries[p] == Dir
  }

  /** `Path(p).mkdir(parents=True, exist_ok=True)`: an existing directory is left
      alone, an existing file raises `FileExistsError` (an `OSError`), and a path
      the system refuses fails as recorded; otherwise the directory appears and
      nothing else changes. */
  function Mkdir(fs: FileSystem, p: Path): (r: Result<FileSystem, MkdirFailure>)
    ensures IsDir(fs, p) ==> r == Success(fs)
    ensures r.Success? ==> IsDir(r.value, p)
    ensures r.Success? ==> r.value.writable == fs.writable && r.value.mkdirFailures == fs.mkdirFailures
    ensures r.Success? ==> forall q :: q != p ==> (Exists(r.value, q) <==> Exists(fs, q))
    ensures r.Success? ==> forall q :: q != p && Exists(fs, q) ==> q in r.value.entries && r.value.entries[q] == fs.entries[q]
    ensures r.Failure? <==> IsFile(fs, p) || (!Exists(fs, p) && p in fs.mkdirFailures)
  {
    if IsDir(fs, p) then Success(fs)
    else if IsFile(fs, p) then Failure(OsFailure("FileExistsError"))
    else if p in fs.mkdirFailures then Failure(fs.mkdirFailures[p])
    else Success(fs.(entries := fs.entries[p := Dir]))
  }
}

=== FILE: json.dfy ===
/** JSON-like values standing in for the Python objects the scaffold passes around:
    configuration trees, argument values and error context payloads. */
module Json {

  import opened Wrappers

  /** A Python value as it can appear in a JSON configuration file.
      `Object` is a `dict` with string keys; `List` is a `list` (or a tuple). */
  datatype Json =
    | Null
    | Bool(b: bool)
    | Int(i: int)
    | Str(s: string)
    | List(items: seq<Json>)
    | Object(fields: map<string, Json>)

  /** Python truthiness (`bool(v)`): `None`, `False`, `0` and empty containers are false. */
  predicate Truthy(v: Json) {
    match v
    case Null => false
    case Bool(b) => b
    case Int(i) => i != 0
    case Str(s) => |s| > 0
    case List(xs) => |xs| > 0
    case Object(m) => |m| > 0
  }

  /** The numeric value of a `bool` or `int`: in Python `True == 1` and `False == 0`. */
  function Numeric(v: Json): int
    requires v.Bool? || v.Int?
  {
    if v.Bool? then (if v.b then 1 else 0) else v.i
  }

  /** Python's `==` on these values. Unlike structural equality it identifies
      `True` with `1` and `False` with `0`, also inside containers. */
  predicate PyEq(a: Json, b: Json) {
    if a.List? && b.List? then
      |a.items| == |b.items| && forall i :: 0 <= i < |a.items| ==> PyEq(a.items[i], b.items[i])
    else if a.Object? && b.Object? then
      a.fields.Keys == b.fields.Keys && forall k :: k in a.fields ==> PyEq(a.fields[k], b.fields[k])
    else if (a.Bool? || a.Int?) && (b.Bool? || b.Int?) then
      Numeric(a) == Numeric(b)
    else
      a == b && (a.Null? || a.Str?)
  }

  /** Python's `==` contains structural equality. */
  lemma {:induction false} PyEqReflexive(a: Json)
    ensures PyEq(a, a)
  {
    match a
    case List(xs) =>
      forall i | 0 <= i < |xs| ensures PyEq(xs[i], xs[i]) {
        PyEqReflexive(xs[i]);
      }
    case Object(f) =>
      forall k | k in f ensures PyEq(f[k], f[k]) {
        PyEqReflexive(f[k]);
      }
    case _ =>
  }

  /** Python's `==` is symmetric. */
  lemma {:induction false} PyEqSymmetric(a: Json, b: Json)
    requires PyEq(a, b)
    ensures PyEq(b, a)
  {
    if a.List? && b.List? {
      forall i | 0 <= i < |b.items| ensures PyEq(b.items[i], a.items[i]) {
        PyEqSymmetric(a.items[i], b.items[i]);
      }
    } else if a.Object? && b.Object? {
      forall k | k in b.fields ensures PyEq(b.fields[k], a.fields[k]) {
        PyEqSymmetric(a.fields[k], b.fields[k]);
      }
    }
  }

  /** Python's `len(v)`, which raises `TypeError` for values without a length. */
  function Length(v: Json): (r: Option<nat>)
    ensures r.Some? <==> v.Str? || v.List? || v.Object?
  {
    match v
    case Str(s) => Some(|s|)
    case List(xs) => Some(|xs|)
    case Object(m) => Some(|m|)
    case _ => None
  }

  /** Python's `type(v).__name__`. */
  function TypeName(v: Json): string {
    match v
    case Null => "NoneType"
    case Bool(_) => "bool"
    case Int(_) => "int"
    case Str(_) => "str"
    case List(_) => "list"
    case Object(_) => "dict"
  }
}

=== FILE: keypath.dfy ===
/** Dot-separated key paths such as "app.name", split as Python's `str.split('.')` does. */
module KeyPath {

  import opened Text

  /** `s.split('.')`: the pieces between dots, empty pieces included, so the
      result is never empty ("" splits to [""]). */
  function Split(s: string): (r: seq<string>)
    ensures |r| >= 1
    ensures forall i :: 0 <= i < |r| ==> '.' !in r[i]
    decreases |s|
  {
    if |s| == 0 then [""]
    else
      var rest := Split(s[1..]);
      if s[0] == '.' then [""] + rest
      else [[s[0]] + rest[0]] + rest[1..]
  }

  /** `'.'.join(parts)` */
  function Join(parts: seq<string>): string {
    JoinWith(".", parts)
  }

  /** Joining the pieces of a split restores the key path. */
  lemma {:induction false} JoinSplit(s: string)
    ensures Join(Split(s)) == s
    decreases |s|
  {
    if |s| > 0 {
      var rest := Split(s[1..]);
      JoinSplit(s[1..]);
      if s[0] != '.' && |rest| > 1 {
        assert Join(rest) == rest[0] + "." + Join(rest[1..]);
      }
      assert s == [s[0]] + s[1..];
    }
  }

  /** A piece without dots followed by a dot splits off as one component. */
  lemma {:induction false} SplitDotted(a: string, t: string)
    requires '.' !in a
    ensures Split(a + "." + t) == [a] + Split(t)
    decreases |a|
  {
    if |a| == 0 {
      assert a + "." + t == "." + t;
      assert ("." + t)[1..] == t;
    } else {
      SplitDotted(a[1..], t);
      assert (a + "." + t)[1..] == a[1..] + "." + t;
      assert [a[0]] + a[1..] == a;
    }
  }

  /** A piece without dots splits to itself. */
  lemma {:induction false} SplitPlain(a: string)
    requires '.' !in a
    ensures Split(a) == [a]
    decreases |a|
  {
    if |a| > 0 {
      SplitPlain(a[1..]);
      assert [a[0]] + a[1..] == a;
    }
  }

  /** Splitting a join of dot-free components restores the components. */
  lemma {:induction false} SplitJoin(parts: seq<string>)
    requires |parts| >= 1
    requires forall i :: 0 <= i < |parts| ==> '.' !in parts[i]
    ensures Split(Join(parts)) == parts
    decreases |parts|
  {
    if |parts| == 1 {
      SplitPlain(parts[0]);
    } else {
      SplitJoin(parts[1..]);
      SplitDotted(parts[0], Join(parts[1..]));
      assert parts == [parts[0]] + parts[1..];
    }
  }
}

=== FILE: text.dfy ===
/** String helpers with Python's meaning: `str(int)`, `str.lower()` on ASCII,
    `str.startswith`, `str.rfind` and `sep.join`. */
module Text {

  import opened Wrappers

  /** The decimal digits of a natural number, most significant first. */
  function NatToString(n: nat): (r: string)
    ensures |r| > 0
    ensures forall i :: 0 <= i < |r| ==> '0' <= r[i] <= '9'
    decreases n
  {
    var d := ['0' + (n % 10) as char];
    if n < 10 then d else NatToString(n / 10) + d
  }

  /** `str(n)` for a Python `int`. */
  function IntToString(n: int): string {
    if n < 0 then "-" + NatToString(-n) else NatToString(n)
  }

  /** `c.lower()` for ASCII letters; other characters are unchanged. */
  function LowerChar(c: char): char {
    if 'A' <= c <= 'Z' then (c as int + 32) as char else c
  }

  /** `s.lower()`, restricted to ASCII case mapping. */
  function Lower(s: string): (r: string)
    ensures |r| == |s|
    ensures forall i :: 0 <= i < |r| ==> !('A' <= r[i] <= 'Z')
    ensures forall i :: 0 <= i < |s| && 'A' <= s[i] <= 'Z' ==> r[i] as int == s[i] as int + 32
    ensures forall i :: 0 <= i < |s| && !('A' <= s[i] <= 'Z') ==> r[i] == s[i]
  {
    seq(|s|, i requires 0 <= i < |s| => LowerChar(s[i]))
  }

  /** Lower-casing twice is lower-casing once. */
  lemma LowerIdempotent(s: string)
    ensures Lower(Lower(s)) == Lower(s)
  {
    assert forall i :: 0 <= i < |s| ==> LowerChar(LowerChar(s[i])) == LowerChar(s[i]);
  }

  /** `s.startswith(p)` */
  predicate StartsWith(s: string, p: string) {
    |p| <= |s| && s[..|p|] == p
  }

  /** `s.rfind(c)`: the last index holding `c`, or `None` where Python returns -1. */
  function LastIndexOf(s: string, c: char): (r: Option<nat>)
    ensures r.Some? ==> r.value < |s| && s[r.value] == c
    ensures r.Some? ==> forall j :: r.value < j < |s| ==> s[j] != c
    ensures r.None? ==> forall j :: 0 <= j < |s| ==> s[j] != c
  {
    if |s| == 0 then None
    else if s[|s| - 1] == c then Some(|s| - 1)
    else LastIndexOf(s[..|s| - 1], c)
  }

  /** `sep.join(parts)` */
  function JoinWith(sep: string, parts: seq<string>): string {
    if |parts| == 0 then ""
    else if |parts| == 1 then parts[0]
    else parts[0] + sep + JoinWith(sep, parts[1..])
  }
}

=== FILE: validation.dfy ===
/** The validation helpers of the application: each check returns normally
    (`Pass`) or raises an application error with a fixed machine-readable code
    and a context payload (`Fail`). */
module Validation {

  import opened Wrappers
  import opened Json
  import opened Text
  import opened Errors
  import opened FileSystem

  /** The error code of a failed check. */
  function FailCode(o: Outcome<Exception>): Option<string> {
    if o.Fail? then CodeOf(o.error) else None
  }

  /** `validate_not_none` */
  function ValidateNotNone(value: Json, name: string): (r: Outcome<Exception>)
    ensures r.Fail? <==> value == Null
    ensures r.Fail? ==> IsInstance(r.error, ValidationKind) && FailCode(r) == Some(NULL_VALUE_ERROR)
    ensures r.Fail? ==> r.error.err.context == map["name" := Str(name)]
  {
    if value.Null? then
      Fail(ValidationError(name + "がNoneです", NULL_VALUE_ERROR, map["name" := Str(name)]))
    else Pass
  }

  /** `validate_not_empty`: fails exactly for falsy values. */
  function ValidateNotEmpty(value: Json, name: string): (r: Outcome<Exception>)
    ensures r.Fail? <==> !Truthy(value)
    ensures Length(value).Some? ==> (r.Fail? <==> Length(value).value == 0)
    ensures r.Fail? ==> IsInstance(r.error, ValidationKind) && FailCode(r) == Some(EMPTY_VALUE_ERROR)
    ensures r.Fail? ==> r.error.err.context == map["name" := Str(name), "type" := Str(TypeName(value))]
  {
    if !Truthy(value) then
      Fail(ValidationError(name + "が空です", EMPTY_VALUE_ERROR,
                           map["name" := Str(name), "type" := Str(TypeName(value))]))
    else Pass
  }

  /** Which bound, if any, a quantity violates; the lower bound is checked first. */
  datatype BoundCheck = BelowMin | AboveMax | WithinBounds

  /** The bound test shared by `validate_range` and `validate_length`: an absent
      bound never fails, and a value equal to a bound passes. */
  function CheckBounds(x: int, lo: Option<int>, hi: Option<int>): (r: BoundCheck)
    ensures r == BelowMin <==> lo.Some? && x < lo.value
    ensures r == AboveMax <==> !(lo.Some? && x < lo.value) && hi.Some? && x > hi.value
    ensures r == WithinBounds <==> (lo.None? || lo.value <= x) && (hi.None? || x <= hi.value)
  {
    if lo.Some? && x < lo.value then BelowMin
    else if hi.Some? && x > hi.value then AboveMax
    else WithinBounds
  }

  /** `validate_range` on integers. */
  function ValidateRange(value: int, minVal: Option<int>, maxVal: Option<int>, name: string): (r: Outcome<Exception>)
    ensures r.Pass? <==> (minVal.None? || minVal.value <= value) && (maxVal.None? || value <= maxVal.value)
    ensures r.Fail? ==> IsInstance(r.error, ValidationKind)
    ensures minVal.Some? && value < minVal.value ==>
      FailCode(r) == Some(MIN_VALUE_ERROR)
      && r.error.err.context == map["value" := Int(value), "min_val" := Int(minVal.value)]
    ensures !(minVal.Some? && value < minVal.value) && maxVal.Some? && value > maxVal.value ==>
      FailCode(r) == Some(MAX_VALUE_ERROR)
      && r.error.err.context == map["value" := Int(value), "max_val" := Int(maxVal.value)]
  {
    match CheckBounds(value, minVal, maxVal)
    case BelowMin =>
      Fail(ValidationError(name + "が最小値 " + IntToString(minVal.value) + " 未満です: " + IntToString(value),
                           MIN_VALUE_ERROR, map["value" := Int(value), "min_val" := Int(minVal.value)]))
    case AboveMax =>
      Fail(ValidationError(name + "が最大値 " + IntToString(maxVal.value) + " を超えています: " + IntToString(value),
                           MAX_VALUE_ERROR, map["value" := Int(value), "max_val" := Int(maxVal.value)]))
    case WithinBounds => Pass
  }

  /** `validate_length`: `len(value)` raises `TypeError` for an unsized value;
      otherwise the length is bounded as in `validate_range`. */
  function ValidateLength(value: Json, minLength: Option<int>, maxLength: Option<int>, name: string): (r: Outcome<Exception>)
    ensures Length(value).None? ==> r.Fail? && r.error == Foreign("TypeError", "object of type '" + TypeName(value) + "' has no len()")
    ensures Length(value).Some? ==>
      var n := Length(value).value;
      && (r.Pass? <==> (minLength.None? || minLength.value <= n) && (maxLength.None? || n <= maxLength.value))
      && (r.Fail? ==> IsInstance(r.error, ValidationKind))
      && (minLength.Some? && n < minLength.value ==>
            FailCode(r) == Some(MIN_LENGTH_ERROR)
            && r.error.err.context == map["length" := Int(n), "min_length" := Int(minLength.value)])
      && (!(minLength.Some? && n < minLength.value) && maxLength.Some? && n > maxLength.value ==>
            FailCode(r) == Some(MAX_LENGTH_ERROR)
            && r.error.err.context == map["length" := Int(n), "max_length" := Int(maxLength.value)])
  {
    match Length(value)
    case None => Fail(Foreign("TypeError", "object of type '" + TypeName(value) + "' has no len()"))
    case Some(n) =>
      match CheckBounds(n, minLength, maxLength)
      case BelowMin =>
        Fail(ValidationError(name + "の長さが最小値 " + IntToString(minLength.value) + " 未満です: " + IntToString(n),
                             MIN_LENGTH_ERROR, map["length" := Int(n), "min_length" := Int(minLength.value)]))
      case AboveMax =>
        Fail(ValidationError(name + "の長さが最大値 " + IntToString(maxLength.value) + " を超えています: " + IntToString(n),
                             MAX_LENGTH_ERROR, map["length" := Int(n), "max_length" := Int(maxLength.value)]))
      case WithinBounds => Pass
  }

  /** Python's `value in choices` on a list: membership under Python `==`. */
  predicate InChoices(value: Json, choices: seq<Json>) {
    exists i :: 0 <= i < |choices| && PyEq(value, choices[i])
  }

  /** `validate_choice` with a list of choices. */
  function ValidateChoice(value: Json, choices: seq<Json>, name: string): (r: Outcome<Exception>)
    ensures r.Fail? <==> !InChoices(value, choices)
    ensures r.Fail? ==> IsInstance(r.error, ValidationKind) && FailCode(r) == Some(CHOICE_VALIDATION_ERROR)
    ensures r.Fail? ==> r.error.err.context == map["choices" := List(choices), "value" := value]
  {
    if !InChoices(value, choices) then
      Fail(ValidationError(name + "が選択肢にありません", CHOICE_VALIDATION_ERROR,
                           map["choices" := List(choices), "value" := value]))
    else Pass
  }

  /** Every listed value is accepted by `validate_choice`. */
  lemma ChoiceAcceptsMembers(value: Json, choices: seq<Json>, name: string)
    requires value in choices
    ensures ValidateChoice(value, choices, name).Pass?
  {
    var i :| 0 <= i < |choices| && choices[i] == value;
    PyEqReflexive(value);
  }

  /** `validate_file_exists`: "not found" is reported before "not a file". */
  function ValidateFileExists(fs: FileSystem, path: Path, name: string): (r: Outcome<Exception>)
    ensures r.Pass? <==> IsFile(fs, path)
    ensures r.Fail? ==> IsInstance(r.error, FileOperation) && r.error.err.context == map["file_path" := Str(path)]
    ensures !Exists(fs, path) ==> FailCode(r) == Some(FILE_NOT_FOUND)
    ensures Exists(fs, path) && !IsFile(fs, path) ==> FailCode(r) == Some(NOT_A_FILE)
  {
    if !Exists(fs, path) then
      Fail(FileOperationError(name + "が存在しません: " + path, FILE_NOT_FOUND, map["file_path" := Str(path)]))
    else if !IsFile(fs, path) then
      Fail(FileOperationError(name + "がファイルではありません: " + path, NOT_A_FILE, map["file_path" := Str(path)]))
    else Pass
  }

  /** `validate_directory_exists`: "not found" is reported before "not a directory". */
  function ValidateDirectoryExists(fs: FileSystem, path: Path, name: string): (r: Outcome<Exception>)
    ensures r.Pass? <==> IsDir(fs, path)
    ensures r.Fail? ==> IsInstance(r.error, FileOperation) && r.error.err.context == map["dir_path" := Str(path)]
    ensures !Exists(fs, path) ==> FailCode(r) == Some(DIRECTORY_NOT_FOUND)
    ensures Exists(fs, path) && !IsDir(fs, path) ==> FailCode(r) == Some(NOT_A_DIRECTORY)
  {
    if !Exists(fs, path) then
      Fail(FileOperationError(name + "が存在しません: " + path, DIRECTORY_NOT_FOUND, map["dir_path" := Str(path)]))
    else if !IsDir(fs, path) then
      Fail(FileOperationError(name + "がディレクトリではありません: " + path, NOT_A_DIRECTORY, map["dir_path" := Str(path)]))
    else Pass
  }

  /** `validate_file_or_directory_exists` */
  function ValidateFileOrDirectoryExists(fs: FileSystem, path: Path, name: string): (r: Outcome<Exception>)
    ensures r.Pass? <==> IsFile(fs, path) || IsDir(fs, path)
    ensures r.Fail? ==> IsInstance(r.error, FileOperation) && FailCode(r) == Some(PATH_NOT_FOUND)
    ensures r.Fail? ==> r.error.err.context == map["path" := Str(path)]
  {
    if !Exists(fs, path) then
      Fail(FileOperationError(name + "が存在しません: " + path, PATH_NOT_FOUND, map["path" := Str(path)]))
    else Pass
  }

  /** The filesystem after a check that may change it, and the check's outcome. */
  datatype Checked = Checked(fs: FileSystem, outcome: Outcome<Exception>)

  /** Creating the missing directory is asked for and fails with an operating-system error. */
  predicate CreationOsFailure(fs: FileSystem, path: Path, createIfMissing: bool) {
    !Exists(fs, path) && createIfMissing && path in fs.mkdirFailures && fs.mkdirFailures[path].OsFailure?
  }

  /** `validate_writable_directory`. A directory created on demand stays created
      even when the following permission check fails. */
  function ValidateWritableDirectory(fs: FileSystem, path: Path, name: string, createIfMissing: bool): (r: Checked)
    ensures r.outcome.Pass? <==>
      (IsDir(fs, path) || (!Exists(fs, path) && createIfMissing && path !in fs.mkdirFailures))
      && path in fs.writable
    ensures r.outcome.Fail? ==> IsInstance(r.outcome.error, FileOperation)
    ensures Exists(fs, path) || !createIfMissing ==> r.fs == fs
    ensures !Exists(fs, path) && createIfMissing && Mkdir(fs, path).Success? ==> r.fs == Mkdir(fs, path).value
    ensures !Exists(fs, path) && createIfMissing && path !in fs.mkdirFailures ==> IsDir(r.fs, path)
    ensures !Exists(fs, path) && !createIfMissing ==> FailCode(r.outcome) == Some(DIRECTORY_NOT_FOUND)
    ensures !Exists(fs, path) && createIfMissing && path in fs.mkdirFailures ==>
      r.fs == fs
      && FailCode(r.outcome) == Some(if fs.mkdirFailures[path].PermissionFailure? then PERMISSION_DENIED else DIRECTORY_CREATION_ERROR)
    ensures Exists(fs, path) && !IsDir(fs, path) ==> FailCode(r.outcome) == Some(NOT_A_DIRECTORY)
    ensures (IsDir(fs, path) || (!Exists(fs, path) && createIfMissing && path !in fs.mkdirFailures)) && path !in fs.writable
      ==> FailCode(r.outcome) == Some(PERMISSION_DENIED)
    ensures r.outcome.Fail? && !CreationOsFailure(fs, path, createIfMissing) ==>
      r.outcome.error.err.context == map["dir_path" := Str(path)]
    ensures CreationOsFailure(fs, path, createIfMissing) ==>
      r.outcome.Fail? && r.outcome.error.App?
      && r.outcome.error.err.context == map["dir_path" := Str(path), "error" := Str(fs.mkdirFailures[path].reason)]
  {
    var ctx := map["dir_path" := Str(path)];
    if !Exists(fs, path) && !createIfMissing then
      Checked(fs, Fail(FileOperationError(name + "が存在しません: " + path, DIRECTORY_NOT_FOUND, ctx)))
    else if !Exists(fs, path) && Mkdir(fs, path).Failure? then
      match Mkdir(fs, path).error
      case PermissionFailure =>
        Checked(fs, Fail(FileOperationError(name + "を作成する権限がありません: " + path, PERMISSION_DENIED, ctx)))
      case OsFailure(reason) =>
        Checked(fs, Fail(FileOperationError(name + "の作成に失敗しました: " + path + " - " + reason,
                                            DIRECTORY_CREATION_ERROR, ctx["error" := Str(reason)])))
    else
      var fs' := if Exists(fs, path) then fs else Mkdir(fs, path).value;
      if !IsDir(fs', path) then
        Checked(fs', Fail(FileOperationError(name + "がディレクトリではありません: " + path, NOT_A_DIRECTORY, ctx)))
      else if path !in fs'.writable then
        Checked(fs', Fail(FileOperationError(name + "に書き込み権限がありません: " + path, PERMISSION_DENIED, ctx)))
      else Checked(fs', Pass)
  }

  /** `Path(p).name`: the final component of a path. */
  function BaseName(p: Path): (r: string)
    ensures forall i :: 0 <= i < |r| ==> r[i] != '/'
    ensures |r| <= |p| && p[|p| - |r|..] == r
    ensures r == p || p[|p| - |r| - 1] == '/'
  {
    match LastIndexOf(p, '/')
    case Some(i) => p[i + 1..]
    case None => p
  }

  /** `i` is the position of the last dot of `name`. */
  predicate LastDotAt(name: string, i: int) {
    0 <= i < |name| && name[i] == '.' && forall j :: i < j < |name| ==> name[j] != '.'
  }

  /** `Path(p).suffix` of a final component: from its last dot, provided that
      dot is neither the first nor the last character of the name; otherwise "". */
  function Suffix(name: string): (r: string)
    ensures r == "" || (|r| >= 2 && r[0] == '.' && forall i :: 1 <= i < |r| ==> r[i] != '.')
    ensures r != "" ==> |r| < |name| && name[|name| - |r|..] == r
    ensures forall i :: LastDotAt(name, i) ==> r == (if 0 < i < |name| - 1 then name[i..] else "")
    ensures (forall i :: 0 <= i < |name| ==> name[i] != '.') ==> r == ""
  {
    match LastIndexOf(name, '.')
    case Some(i) => if 0 < i < |name| - 1 then name[i..] else ""
    case None => ""
  }

  /** An extension with at most one leading dot removed. */
  function WithoutDot(ext: string): (r: string)
    ensures ext == r || ext == "." + r
    ensures |ext| > 0 && ext[0] == '.' <==> ext == "." + r
  {
    if StartsWith(ext, ".") then ext[1..] else ext
  }

  /** An allowed extension as compared: lower-cased, with a leading dot added if missing. */
  function NormaliseExtension(ext: string): (r: string)
    ensures |r| > 0 && r[0] == '.'
    ensures r[1..] == Lower(WithoutDot(ext))
  {
    if StartsWith(ext, ".") then Lower(ext) else "." + Lower(ext)
  }

  /** An allowed extension as displayed in the error: a leading dot added if missing, case kept. */
  function DisplayExtension(ext: string): (r: string)
    ensures |r| > 0 && r[0] == '.' && r[1..] == WithoutDot(ext)
  {
    if StartsWith(ext, ".") then ext else "." + ext
  }

  /** The allowed extensions as displayed in the error context, in the given order. */
  function DisplayExtensions(allowed: seq<string>): (r: seq<Json>)
    ensures |r| == |allowed|
    ensures forall i :: 0 <= i < |r| ==> r[i].Str? && |r[i].s| > 0 && r[i].s[0] == '.' && r[i].s[1..] == WithoutDot(allowed[i])
  {
    seq(|allowed|, i requires 0 <= i < |allowed| => Str(DisplayExtension(allowed[i])))
  }

  /** The displayed spelling of an allowed extension, lower-cased, is the one compared. */
  lemma DisplayThenLower(ext: string)
    ensures Lower(DisplayExtension(ext)) == NormaliseExtension(ext)
  {
    var d := DisplayExtension(ext);
    assert d == "." + WithoutDot(ext) by { assert d == [d[0]] + d[1..]; }
    assert Lower(d) == "." + Lower(WithoutDot(ext));
    NormaliseShape(ext);
  }

  /** The normalised list of allowed extensions. */
  function AllowedExtensions(allowed: seq<string>): (r: seq<string>)
    ensures |r| == |allowed|
    ensures forall i :: 0 <= i < |r| ==> |r[i]| > 0 && r[i][0] == '.' && r[i][1..] == Lower(WithoutDot(allowed[i]))
    ensures forall i, j :: 0 <= i < |r| && 0 <= j < |r[i]| ==> !('A' <= r[i][j] <= 'Z')
  {
    seq(|allowed|, i requires 0 <= i < |allowed| => NormaliseExtension(allowed[i]))
  }

  /** Some allowed extension, normalised, is the lower-cased suffix of the file's name. */
  predicate ExtensionAllowed(path: Path, allowed: seq<string>) {
    exists i :: 0 <= i < |allowed| && NormaliseExtension(allowed[i]) == Lower(Suffix(BaseName(path)))
  }

  /** `validate_file_extension`: the file checks come first, then the
      lower-cased suffix must be one of the normalised allowed extensions. */
  function ValidateFileExtension(fs: FileSystem, path: Path, allowed: seq<string>, name: string): (r: Outcome<Exception>)
    ensures !IsFile(fs, path) ==> r == ValidateFileExists(fs, path, name)
    ensures !Exists(fs, path) ==> FailCode(r) == Some(FILE_NOT_FOUND) && IsInstance(r.error, FileOperation)
    ensures Exists(fs, path) && !IsFile(fs, path) ==> FailCode(r) == Some(NOT_A_FILE) && IsInstance(r.error, FileOperation)
    ensures IsFile(fs, path) ==>
      (r.Pass? <==> ExtensionAllowed(path, allowed))
    ensures IsFile(fs, path) && r.Fail? ==>
      FailCode(r) == Some(INVALID_FILE_EXTENSION) && IsInstance(r.error, ValidationKind)
      && r.error.err.context == map["allowed_extensions" := List(DisplayExtensions(allowed)),
                                    "actual_extension" := Str(Lower(Suffix(BaseName(path))))]
  {
    var existence := ValidateFileExists(fs, path, name);
    if existence.Fail? then existence
    else
      var extension := Lower(Suffix(BaseName(path)));
      if extension !in AllowedExtensions(allowed) then
        Fail(ValidationError(name + "の拡張子が許可されていません: " + extension, INVALID_FILE_EXTENSION,
                             map["allowed_extensions" := List(DisplayExtensions(allowed)), "actual_extension" := Str(extension)]))
      else Pass
  }

  /** A normalised extension is a dot followed by the lower-cased extension without its dot. */
  lemma NormaliseShape(ext: string)
    ensures NormaliseExtension(ext) == "." + Lower(WithoutDot(ext))
  {
    var r := NormaliseExtension(ext);
    assert r == [r[0]] + r[1..];
  }

  /** Lower-casing never introduces or removes a leading dot. */
  lemma LowerKeepsNoDot(ext: string)
    requires !StartsWith(ext, ".")
    ensures !StartsWith(Lower(ext), ".")
  {
    if |ext| > 0 {
      assert ext[..1] == [ext[0]];
      assert Lower(ext)[..1] == [Lower(ext)[0]];
    }
  }

  /** An extension may be allowed with or without its dot and in any case:
      "jpg", ".JPG" and ".jpg" all allow the same files. */
  lemma {:induction false} ExtensionSpellingsAgree(ext: string)
    requires !StartsWith(ext, ".")
    ensures NormaliseExtension(ext) == NormaliseExtension("." + ext)
    ensures NormaliseExtension(Lower(ext)) == NormaliseExtension(ext)
    ensures NormaliseExtension(NormaliseExtension(ext)) == NormaliseExtension(ext)
  {
    var lowered := Lower(ext);
    assert WithoutDot(ext) == ext;
    NormaliseShape(ext);
    assert ("." + ext)[..1] == ".";
    assert WithoutDot("." + ext) == ext;
    NormaliseShape("." + ext);
    LowerKeepsNoDot(ext);
    assert WithoutDot(lowered) == lowered;
    NormaliseShape(lowered);
    LowerIdempotent(ext);
    assert ("." + lowered)[..1] == ".";
    assert WithoutDot("." + lowered) == lowered;
    NormaliseShape("." + lowered);
  }

  /** "JPG" and "jpg" both lower-case to "jpg". */
  lemma LowerJpg()
    ensures Lower("JPG") == "jpg" && Lower("jpg") == "jpg"
  {
    var lowered := Lower("JPG");
    assert lowered[0] == 'j' && lowered[1] == 'p' && lowered[2] == 'g';
    var same := Lower("jpg");
    assert same[0] == 'j' && same[1] == 'p' && same[2] == 'g';
  }

  /** The concrete spellings named in the documentation of `validate_file_extension`. */
  lemma JpgSpellingsAgree()
    ensures NormaliseExtension("jpg") == NormaliseExtension(".JPG") == NormaliseExtension(".jpg") == ".jpg"
  {
    var upper, lower := "JPG", "jpg";
    assert upper[..1] == "J" && lower[..1] == "j";
    assert "." + upper == ".JPG" && "." + lower == ".jpg";
    LowerJpg();
    ExtensionSpellingsAgree(upper);
    ExtensionSpellingsAgree(lower);
    assert WithoutDot(lower) == lower;
    NormaliseShape(lower);
  }

  /** `validate_mutually_exclusive` numbers its arguments when no names are given. */
  function DefaultNames(n: nat): (r: seq<string>)
    ensures |r| == n
  {
    seq(n, i requires 0 <= i < n => "引数" + NatToString(i + 1))
  }

  /** The names in effect: the given list, or one generated name per value. */
  function EffectiveNames(values: seq<Json>, names: Option<seq<string>>): seq<string> {
    if names.None? then DefaultNames(|values|) else names.value
  }

  /** The names paired (as by `zip`) with a truthy value, in argument order. */
  function SpecifiedArgs(values: seq<Json>, names: seq<string>): (r: seq<string>)
    ensures |r| <= |values| && |r| <= |names|
    ensures forall n :: n in r ==> n in names
    decreases |values|
  {
    if |values| == 0 || |names| == 0 then []
    else
      var rest := SpecifiedArgs(values[1..], names[1..]);
      assert forall n :: n in rest ==> n in names[1..];
      if Truthy(values[0]) then [names[0]] + rest else rest
  }

  /** Some name is reported exactly when some paired value is truthy. */
  lemma {:induction false} SpecifiedArgsNonEmpty(values: seq<Json>, names: seq<string>)
    ensures |SpecifiedArgs(values, names)| > 0 <==>
      exists i :: 0 <= i < |values| && i < |names| && Truthy(values[i])
    decreases |values|
  {
    if |values| == 0 || |names| == 0 {
    } else {
      SpecifiedArgsNonEmpty(values[1..], names[1..]);
      if exists i :: 0 <= i < |values| && i < |names| && Truthy(values[i]) {
        var i :| 0 <= i < |values| && i < |names| && Truthy(values[i]);
        if i > 0 {
          assert Truthy(values[1..][i - 1]);
        }
      }
      if exists i :: 0 <= i < |values| - 1 && i < |names| - 1 && Truthy(values[1..][i]) {
        var i :| 0 <= i < |values| - 1 && i < |names| - 1 && Truthy(values[1..][i]);
        assert Truthy(values[i + 1]);
      }
    }
  }

  /** More than one name is reported exactly when two paired values are truthy. */
  lemma {:induction false} SpecifiedArgsMany(values: seq<Json>, names: seq<string>)
    ensures |SpecifiedArgs(values, names)| > 1 <==>
      exists i, j :: 0 <= i < j < |values| && j < |names| && Truthy(values[i]) && Truthy(values[j])
    decreases |values|
  {
    if |values| == 0 || |names| == 0 {
    } else {
      var tv, tn := values[1..], names[1..];
      SpecifiedArgsMany(tv, tn);
      SpecifiedArgsNonEmpty(tv, tn);
      if exists i, j :: 0 <= i < j < |values| && j < |names| && Truthy(values[i]) && Truthy(values[j]) {
        var i, j :| 0 <= i < j < |values| && j < |names| && Truthy(values[i]) && Truthy(values[j]);
        assert Truthy(tv[j - 1]);
        if i > 0 {
          assert Truthy(tv[i - 1]);
        }
      }
      if Truthy(values[0]) && exists j :: 0 <= j < |tv| && j < |tn| && Truthy(tv[j]) {
        var j :| 0 <= j < |tv| && j < |tn| && Truthy(tv[j]);
        assert Truthy(values[0]) && Truthy(values[j + 1]);
      }
      if exists i, j :: 0 <= i < j < |tv| && j < |tn| && Truthy(tv[i]) && Truthy(tv[j]) {
        var i, j :| 0 <= i < j < |tv| && j < |tn| && Truthy(tv[i]) && Truthy(tv[j]);
        assert Truthy(values[i + 1]) && Truthy(values[j + 1]);
      }
    }
  }

  /** The names are collected left to right: one more paired value appends its
      name exactly when that value is truthy. */
  lemma {:induction false} SpecifiedArgsAppend(values: seq<Json>, names: seq<string>, v: Json, n: string)
    requires |values| == |names|
    ensures SpecifiedArgs(values + [v], names + [n]) == SpecifiedArgs(values, names) + (if Truthy(v) then [n] else [])
    decreases |values|
  {
    if |values| == 0 {
      assert values + [v] == [v] && names + [n] == [n];
      assert [v][1..] == [] && [n][1..] == [];
    } else {
      assert (values + [v])[1..] == values[1..] + [v];
      assert (names + [n])[1..] == names[1..] + [n];
      SpecifiedArgsAppend(values[1..], names[1..], v, n);
    }
  }

  /** A list of Python strings. */
  function StrList(xs: seq<string>): (r: Json)
    ensures r.List? && |r.items| == |xs|
  {
    List(seq(|xs|, i requires 0 <= i < |xs| => Str(xs[i])))
  }

  /** `validate_mutually_exclusive(*values, names=names)`: fails when more than
      one value that has a name is truthy, reporting the names of the truthy ones. */
  function ValidateMutuallyExclusive(values: seq<Json>, names: Option<seq<string>>): (r: Outcome<Exception>)
    ensures r.Fail? <==>
      exists i, j :: 0 <= i < j < |values| && j < |EffectiveNames(values, names)| && Truthy(values[i]) && Truthy(values[j])
    ensures |values| <= 1 ==> r.Pass?
    ensures r.Fail? ==> IsInstance(r.error, ValidationKind) && FailCode(r) == Some(MUTUALLY_EXCLUSIVE_ARGS)
    ensures r.Fail? ==>
      r.error.err.context == map["specified_args" := StrList(SpecifiedArgs(values, EffectiveNames(values, names)))]
  {
    var specified := SpecifiedArgs(values, EffectiveNames(values, names));
    SpecifiedArgsMany(values, EffectiveNames(values, names));
    if |specified| > 1 then
      Fail(ValidationError("以下の引数は同時に指定できません: " + JoinWith(", ", specified),
                           MUTUALLY_EXCLUSIVE_ARGS, map["specified_args" := StrList(specified)]))
    else Pass
  }

  /** With two named flags, the check fails exactly when both are set, and reports both names in order. */
  lemma TwoFlagsExclusive(a: Json, b: Json, nameA: string, nameB: string)
    ensures ValidateMutuallyExclusive([a, b], Some([nameA, nameB])).Fail? <==> Truthy(a) && Truthy(b)
    ensures Truthy(a) && Truthy(b) ==> SpecifiedArgs([a, b], [nameA, nameB]) == [nameA, nameB]
  {
    var values, names := [a, b], [nameA, nameB];
    assert values[1..] == [b] && names[1..] == [nameB];
    assert [b][1..] == [] && [nameB][1..] == [];
    var tail := SpecifiedArgs([b], [nameB]);
    assert tail == if Truthy(b) then [nameB] else [];
    var specified := SpecifiedArgs(values, names);
    assert specified == if Truthy(a) then [nameA] + tail else tail;
    assert |specified| > 1 <==> Truthy(a) && Truthy(b);
    assert EffectiveNames(values, Some(names)) == names;
  }

  /** `validate_conditional_required`: a falsy value is rejected only when the condition holds. */
  function ValidateConditionalRequired(condition: bool, value: Json, conditionName: string, valueName: string): (r: Outcome<Exception>)
    ensures r.Fail? <==> condition && !Truthy(value)
    ensures r.Fail? ==> IsInstance(r.error, ValidationKind) && FailCode(r) == Some(CONDITIONAL_REQUIRED_ERROR)
    ensures r.Fail? ==> r.error.err.context == map["condition_name" := Str(conditionName), "value_name" := Str(valueName)]
  {
    if condition && !Truthy(value) then
      Fail(ValidationError(conditionName + " の場合は " + valueName + " が必須です", CONDITIONAL_REQUIRED_ERROR,
                           map["condition_name" := Str(conditionName), "value_name" := Str(valueName)]))
    else Pass
  }
}

=== FILE: wrappers.dfy ===
/** Failure-carrying datatypes used in place of Python's `None` and raised exceptions. */
module Wrappers {

  /** A value that may be absent (Python's `Optional[T]`). */
  datatype Option<+T> = None | Some(value: T) {
    /** The wrapped value, or `default` when absent. */
    function GetOr(default: T): T {
      match this
      case Some(v) => v
      case None => default
    }
  }

  /** The outcome of an operation that returns a value or raises an error. */
  datatype Result<+R, +E> = Success(value: R) | Failure(error: E) {
    predicate IsFailure() {
      Failure?
    }

    function PropagateFailure<U>(): Result<U, E>
      requires Failure?
    {
      Failure(error)
    }

    function Extract(): R
      requires Success?
    {
      value
    }
  }

  /** The outcome of a check that returns nothing or raises an error. */
  datatype Outcome<+E> = Pass | Fail(error: E) {
    predicate IsFailure() {
      Fail?
    }

    function PropagateFailure<U>(): Result<U, E>
      requires Fail?
    {
      Failure(error)
    }
  }
}
